=== FILE: README.md ===
# Document question answering: chunker and answerer core

This project models two parts of a PDF question-answering service.

The **text chunker** (`TextChunker`) cuts a document into overlapping
chunks:
- Start offsets are `range(0, len(text), chunk_size - overlap)`.
- They are processed in batches of `batch_size`.
- Each chunk ends at `min(start + chunk_size, len(text))`. Only when that
  end falls before the end of the text is it moved back to a sentence
  boundary found within the last 50 characters above `start`.
- Each chunk is whitespace-stripped.
- Chunks shorter than 100 characters are dropped.
- The output is cut off at `max_chunks`.

The **question answerer** (`QuestionAnswerer`) handles a question in these
steps:
- It ranks chunks by a similarity score boosted by keyword matches, and
  cleans the selected ones (`preprocess_chunk`).
- Questions about the focus, subject or "main" topic first go through
  fixed regular-expression rules (`extract_fallback_answer`).
- Otherwise the question goes to an extractive reader. A pattern answer
  replaces a weak reader answer.
- On its first non-empty call, the instance learns a title rule from the
  first chunk (`analyze_document`).

The modules are:

| file | module | models |
|---|---|---|
| `wrappers.dfy` | `Wrappers` | `Option`, and `Outcome` for what a call returns or raises (`IndexError`, `TypeError`) |
| `text.dfy` | `Text` | Python's `str.isspace`, `strip`, `lower`, `split`, `join`, `replace('  ', ' ')`, `in` on strings and `s[:n]` |
| `chunker.dfy` | `Chunker` | `text_chunker.py` |
| `ranking.dfy` | `Ranking` | `preprocess_chunk`, `find_relevant_chunks` |
| `fallback.dfy` | `Fallback` | `extract_fallback_answer` |
| `answerer.dfy` | `Answerer` | `analyze_document`, `answer_question`, and the instance state (`_analyzed`, `focus_patterns`) |

### Chunker

`Chunker.Chunks` is the specification of what the chunker produces. It
lists the start offsets, keeps every piece (`PieceAt`) that survives the
length filter, and takes the first `max_chunks` of them. There are no
batches in it.

`Chunker.SplitIntoChunks` is the batched loop of the source:
- Each batch works on the prefix `text[:batch_end]`, as `ProcessBatch`
  does.
- The loop stops early once `max_chunks` is reached.

The method is proved equal to `Chunks`. So the slicing and the early
exit do not change the result.

### Answerer

The collaborators the answerer cannot see are parameters:
- `Search` is the regular-expression engine. It takes a pattern, a
  subject and a case-insensitive flag, and returns group 1 of the first
  match, or nothing.
- `QAModel` is the extractive reader.
- `Escape` is `re.escape`.
- The cosine similarities come in as a sequence of reals.

Exceptions are values. `Outcome` is either `Return(v)` or `Raise(e)`. A
`Reply` carries the instance state after the call alongside the outcome,
because the state update happens before any exception.

## Model

| member | source | states |
|---|---|---|
| Chunker.FindBoundary | text_chunker.py:29-34 | The result is never past `end`. If `start < end`, it stays above `start`. It is either `end` itself or a sentence boundary (a character of `.!?\n` just before it) inside the 50-character window. It is the largest such boundary. |
| Chunker.ScanBack | text_chunker.py:31-33 | The downward scan returns the highest boundary in `(lo, i]`, or `end` when there is none. |
| Chunker.PieceEnd | text_chunker.py:49-51 | The end lies in `(start, len(text)]` and at most `chunk_size` past the start. It is `len(text)` when the naive end reaches the text's end. Otherwise it is the naive end or a boundary less than 50 characters before it, and when the window above `max(end - 50, start)` holds a boundary it is the highest one: the nearest boundary is taken, and the naive end is kept only if it is itself a boundary or the window holds none. |
| Chunker.PieceAt | text_chunker.py:45-55 | A piece exists only for a start inside the text, and it begins at that start. Starts at or past the end of the text give nothing. |
| Chunker.PieceShape | text_chunker.py:49-55 | A kept piece spans at most `chunk_size` characters. Its text has 100..`chunk_size` characters and no outer whitespace. It occurs in the document exactly where the stripped slice placed it. |
| Chunker.ProcessBatch | text_chunker.py:36-57 | A batch run on the prefix `text[:batch_end]` yields exactly the (chunk, end) pairs the pieces of those starts would yield on the whole text. The prefix cut never shortens a chunk or moves a boundary. |
| Chunker.PrefixSliceTransparent | text_chunker.py:43-55 | Running the per-start loop on a prefix `text[:batch_end]` that reaches every start's naive end gives, start by start, the (chunk, end) pairs of the kept pieces of the whole text. |
| Chunker.StartOnPrefix | text_chunker.py:42-55 | For one start, working on the prefix slice gives the same pair as working on the whole text. |
| Chunker.BatchStep | text_chunker.py:72-76 | Appending the chunks of batch `starts[lo:hi]` to the chunks of `starts[:lo]` gives the chunks of `starts[:hi]`. |
| Chunker.EarlyExit | text_chunker.py:78-80 | Once the chunks collected from a prefix of the starts reach `max_chunks`, their first `max_chunks` are the final result. So breaking out of the loop loses nothing. |
| Chunker.SplitIntoChunks | text_chunker.py:59-88 | The batched loop with early exit returns exactly `Chunks(text, cfg)`, the unbatched specification. |
| Chunker.Chunks | text_chunker.py:88 | At most `max_chunks` chunks are returned. |
| Chunker.StartsFromShape | text_chunker.py:66 | The start offsets are spaced exactly `chunk_size - overlap` apart and lie in `[0, len(text))`. The last one lies within one step of the end. |
| Chunker.StartsFrom | text_chunker.py:66 | `range(s, n, step)` is empty exactly when `s >= n`, and otherwise begins at `s`. |
| Chunker.StartsFromIsArithmetic | text_chunker.py:66 | The k-th start offset is `k * (chunk_size - overlap)`. |
| Chunker.StartsFromIncreasing | text_chunker.py:66 | The start offsets are strictly increasing. |
| Chunker.KeptPiecesProduced | text_chunker.py:45-55 | Every kept piece is what `PieceAt` produces for one of the given starts. |
| Chunker.KeptPiecesIncreasing | text_chunker.py:45-55 | The filter keeps the order of the starts: the kept pieces' starts are strictly increasing. |
| Chunker.ChunkShape | text_chunker.py:53-55 | Every chunk has between 100 and `chunk_size` characters. It has no leading or trailing whitespace. It is a substring of the document. |
| Chunker.ChunkOrder | text_chunker.py:72-76 | Chunks come in document order: their source slices start at strictly increasing offsets. |
| Chunker.ChunkOrigin | text_chunker.py:49-55 | The k-th chunk is `text[s:e].strip()`, where `s` is one of the start offsets and `e` is the boundary-adjusted end for `s`. |
| Chunker.ShortTextYieldsNothing | text_chunker.py:54 | A document shorter than 100 characters yields no chunks. |
| Chunker.DefaultConfigMeetsTestBounds | tests/test_document_qa.py:153-158 | With the default parameters (800, 100, 1000, 50), any document yields at most 1000 chunks, each of 100 to 1199 characters. These are the bounds the chunking test asserts. |
| Text.Strip | question_answerer.py:46 | The result has no outer whitespace. It is the input minus a leading and a trailing whitespace run. |
| Text.StripIsInfix | question_answerer.py:46 | The stripped text is a substring of the input. |
| Text.WordsAreWords | question_answerer.py:66 | Every word `split()` yields is non-empty and free of whitespace. |
| Text.WordsOfWord | question_answerer.py:66 | A non-empty string without whitespace splits into itself alone. |
| Text.WordsSplitAt | question_answerer.py:66 | Every whitespace character separates words: the words of `s` are the words before it followed by the words after it. |
| Text.WordsSkipSpace | question_answerer.py:66 | Leading whitespace does not change the words. |
| Text.NoWordsAllSpace | question_answerer.py:66 | A string splits into no words only when it is all whitespace. |
| Text.JoinAppend | question_answerer.py:189-193 | Joining two non-empty lists puts exactly one separator between the two joins. |
| Text.ReplaceDoubleSpace | question_answerer.py:114 | `replace('  ', ' ')` never lengthens the text, keeps it non-empty, and keeps a first or last character that is not a space. |
| Text.ReplaceDoubleSpaceClean | question_answerer.py:114 | Text with no two adjacent spaces is left unchanged. |
| Text.ReplaceDoubleSpaceFirst | question_answerer.py:114 | The leftmost double space becomes one space and the scan resumes after it: runs are halved left to right without overlap, so three spaces become two. |
| Ranking.CollapseSpaceSingles | question_answerer.py:46 | After `re.sub(r'\s+', ' ', ...)`, the only whitespace is the plain space, no two spaces are adjacent, and a leading space comes only from leading whitespace. |
| Ranking.CollapseSpaceNonSpace | question_answerer.py:46 | Collapsing whitespace leaves the non-whitespace characters unchanged and in order. |
| Ranking.CollapseSpaceShape | question_answerer.py:46 | `re.sub(r'\s+', ' ', s)` is the words of `s` joined by single spaces, with one space in front when `s` starts with whitespace and one behind when it ends with whitespace after a word. |
| Ranking.CollapseSpaceJoinsWords | question_answerer.py:46 | Collapsing then stripping is `" ".join(s.split())`: words stay apart, separated by exactly one space. |
| Ranking.KeepAllowed | question_answerer.py:48 | Only letters, digits, whitespace and `.,!?-` survive, and each survivor comes from the input. |
| Ranking.KeepAllowedAppend | question_answerer.py:48 | Deleting the disallowed characters works character by character: it distributes over concatenation. |
| Ranking.KeepAllowedKeepsAllowed | question_answerer.py:48 | A string of allowed characters is kept whole. |
| Ranking.KeepAllowedDropsRest | question_answerer.py:48 | A string of disallowed characters is removed entirely. |
| Ranking.Preprocess | question_answerer.py:43-49 | The cleaned chunk is no longer than the input. Every character is a letter, digit, plain space or one of `.,!?-`. Its non-whitespace characters are exactly the allowed non-whitespace characters of the input, in order. |
| Ranking.PreprocessJoinsWords | question_answerer.py:43-49 | A cleaned chunk is `" ".join(chunk.split())` with every character outside `[a-zA-Z0-9\s.,!?-]` deleted. |
| Ranking.PreprocessNotIdempotent | question_answerer.py:43-49 | Cleaning is not idempotent. `"# a"` cleans to `" a"`, because the strip runs before the character filter, and that cleans again to `"a"`. |
| Ranking.Keywords | question_answerer.py:66-67 | Every question keyword is longer than three characters. |
| Ranking.KeywordMatches | question_answerer.py:71 | A chunk matches at most as many keywords as the question has. |
| Ranking.BoostMonotone | question_answerer.py:72 | For a non-negative similarity, more keyword matches never lower the boosted score. |
| Ranking.BoostPenalisesNegative | question_answerer.py:72 | For a negative similarity, more keyword matches strictly lower the boosted score. |
| Ranking.BoostGrowsWithScore | question_answerer.py:72 | For a fixed number of matches the boost keeps the order of the similarities. |
| Ranking.MatchesSubset | question_answerer.py:69-71 | A chunk containing every keyword another chunk contains matches at least as many keywords. |
| Ranking.NoKeywordsNoBoost | question_answerer.py:66-72 | A question with no word longer than three characters leaves every similarity score unchanged. |
| Ranking.MoreKeywordsRankHigher | question_answerer.py:66-72 | Of two chunks, one with a non-negative similarity at least the other's that contains every question keyword the other contains gets a boosted score at least as high. |
| Ranking.SelectCountIsSliceLength | question_answerer.py:75 | The number of indices kept is the length of Python's slice `[-top_k:]` of a list of `n` entries, with negative starts counted from the end and clamped. |
| Ranking.SelectTop | question_answerer.py:75 | It selects `m` distinct candidates in non-increasing score order. Each selected one scores at least as high as every unselected candidate. |
| Ranking.TopIndices | question_answerer.py:75 | The indices are distinct and in range, and there are `SelectCount` of them. Their scores are non-increasing. No index left out scores higher than one kept. |
| Ranking.RelevantChunksSpec | question_answerer.py:66-76 | For positive `top_k`, the relevant chunks are the cleaned chunks at `min(top_k, n)` distinct indices. The indices are ordered by boosted score, best first, and no chunk left out has a higher boosted score than one chosen. |
| Fallback.Accept | question_answerer.py:111-119 | A matched group is accepted iff it has at least 10 characters after stripping and, once polished, contains one of the relevance words case-insensitively. The accepted answer is non-empty, has no outer whitespace and does not start with a lower-case letter. |
| Fallback.Polish | question_answerer.py:114-115 | The polished answer is non-empty and no longer than the input. Its first character is not a lower-case letter. An answer without outer whitespace keeps none. |
| Fallback.PolishLower | question_answerer.py:114-119 | Capitalising the first letter is invisible to the case-insensitive relevance test, which therefore sees the text with its double spaces halved. |
| Fallback.PolishClean | question_answerer.py:114-115 | Text with no two adjacent spaces is polished by capitalising its first letter only. |
| Fallback.Candidate | question_answerer.py:108-123 | A rule yields nothing when its case-insensitive search on the cleaned chunk fails. An answer it yields carries the rule's confidence, comes from a matched group of at least 10 stripped characters, is non-empty, has no outer whitespace, does not start with a lower-case letter and contains a relevance word case-insensitively. Conversely, a match whose stripped group has at least 10 characters and whose polished form contains a relevance word always yields an answer. |
| Fallback.RuleCandidates | question_answerer.py:108-123 | One candidate per focus rule, in rule order. |
| Fallback.FirstSome | question_answerer.py:106-123 | The result is nothing iff every candidate is nothing. Otherwise it is the first present candidate. |
| Fallback.FirstSomeAppend | question_answerer.py:106-108 | The first answer of two concatenated candidate lists comes from the first list when it has one. |
| Fallback.ScanRulesIsFirst | question_answerer.py:108-123 | The rule loop on one chunk (`ScanRules`) returns the first rule's accepted answer, in rule order. |
| Fallback.ScanIsFirstAcceptable | question_answerer.py:106-123 | The nested loop (`ScanChunks`) returns the first accepted answer in chunk-major, rule-minor order. |
| Fallback.FocusScores | question_answerer.py:106-123 | An answer from the rule loop scores with one of the rules' confidences. |
| Fallback.ExtractFallbackAnswer | question_answerer.py:81-152 | A question naming neither focus nor author gets no answer. An answer only comes to a focus question and scores with a focus rule's confidence or 0.8. `IndexError` is raised only for a focus question with no chunks. `TypeError` is raised for an author question exactly when an author pattern matches in the first two chunks; otherwise it gets no answer. |
| Fallback.ScanAuthorsRaisesIffMatch | question_answerer.py:140-150 | The author loops over the raw chunks raise `TypeError` exactly when some author pattern matches some chunk (`AuthorMatch`), because `match.lastgroup` is `None` at line 145; otherwise they fall through to `None`. |
| Fallback.AuthorPatternsRaiseIffMatch | question_answerer.py:141-145 | On one chunk, the author-pattern loop raises exactly when one of the patterns matches. |
| Fallback.FocusBranch | question_answerer.py:106-131 | A focus question gets the first acceptable rule answer from the first three chunks. Failing that, with no chunks it raises `IndexError`. Otherwise it gets the stripped title match in the raw first chunk, scored 0.8, or no answer. |
| Fallback.OnlyLeadingChunksRead | question_answerer.py:106-140 | Only the first three chunks can affect the outcome. |
| Answerer.TitleLength | question_answerer.py:157 | `^([^.!?\n]+)` matches the longest terminator-free prefix. |
| Answerer.AnalyzeDocument | question_answerer.py:154-160 | A first chunk that opens with a non-terminator puts a 0.98 rule for its escaped, stripped title at the front of the focus patterns and keeps the rest. Any other first chunk leaves the state unchanged. |
| Answerer.Prepare | question_answerer.py:169-171 | After the call the document counts as analysed iff it already was or the chunk list is non-empty. |
| Answerer.NeuralPath | question_answerer.py:192-213 | The context is all relevant chunks joined by spaces. When the reader's answer passes the acceptance test (`Accepted`: non-blank, score at least 0.3, line 202) it is returned unchanged. `IndexError` escapes only for a focus question with no relevant chunks, and `TypeError` only for an author question that is not a focus question. |
| Answerer.Respond | question_answerer.py:182-213 | An early question with no chunks raises `IndexError` at `chunks[0]`. Conversely, `IndexError` escapes only for an early question whose chunk list or ranked list is empty. `TypeError` escapes only for an author question that is not a focus question. |
| Answerer.AnswerQuestion | question_answerer.py:162-213 | The analysed flag is set by the first call with chunks and never cleared. `IndexError` escapes iff the chunk list is empty and the question has an early word. `TypeError` escapes only for an author question that is not a focus question. |
| Answerer.EarlyPatternAnswerWins | question_answerer.py:182-190 | When the early pattern pass finds an answer, it is returned with the first two relevant chunks as context, and the reader has no say: any two readers give the same reply. |
| Answerer.NeuralOutcome | question_answerer.py:192-213 | When the early pass does not apply or finds nothing, a reader answer that passes `Accepted` (line 202) is returned as is. Otherwise a pattern answer over the relevant chunks replaces the reader's answer and score, and an exception from that pass propagates. The context is always all relevant chunks joined. |
| Answerer.AnalyzedOnce | question_answerer.py:169-171 | After a call with chunks, later calls leave the state untouched. The title rule is learned only once. |
| Answerer.FirstAnalysisInsertsTitleRule | question_answerer.py:154-171 | The first call with chunks inserts exactly one 0.98 rule in front of the existing focus patterns, unless the first chunk is empty or opens with a terminator. |
| Answerer.FreshInstanceFirstCall | question_answerer.py:169-171 | On a fresh instance (no `_analyzed` attribute, the seven focus patterns the constructor sets at lines 21-33), the first call with chunks marks the document analysed and leaves eight patterns when the first chunk opens with a title, seven otherwise, with the constructor's seven last and in order. |
| Answerer.OutcomeIgnoresState | question_answerer.py:162-213 | What `answer_question` returns or raises does not depend on the instance state. The learned `focus_patterns` are never consulted. |
| Answerer.FocusIsEarly | question_answerer.py:86 | Every focus question also takes the early pattern path (line 183). |
| Answerer.NeuralPathReturns | question_answerer.py:201-206 | For a question naming neither focus nor author, the reader path never raises. |
| Answerer.PlainQuestionNeverRaises | question_answerer.py:183-206 | A question with none of the early words and no author word is always answered and never raises. |

## Left out

- Embeddings and `cosine_similarity` (question_answerer.py:58-63) are outside the model. The similarity scores are an input sequence of reals, one per chunk. The errors cosine similarity raises on empty or mismatched inputs are not modelled.
- Floating point is modelled as exact reals: the score boost, the 0.3 threshold and the confidences.
- The regular-expression engine is an oracle (`Search`), and so are `re.escape` and the transformer reader. Their internals are not modelled. `\s+` collapsing, the character filter, strip, lower/upper, split and join are written out.
- `Text.Lower` and the capitalisation in `Fallback.Polish` change only ASCII letters. Python's Unicode case mapping is not modelled.
- Printing, `time.time()`, the torch device choice, the pipeline construction and the chunker's `_stats`/`get_stats` are left out. None of them affects a result.
- The instance's `author_patterns` list (question_answerer.py:36-41) is never read by the code. Only the local author patterns at lines 135-138 are modelled.
- `Chunker.SplitIntoChunks` and `Chunker.Chunks` require a valid configuration: `chunk_size > 0`, `overlap < chunk_size`, `max_chunks >= 0`, `batch_size > 0`.
  - A zero step (`chunk_size == overlap`) makes `range` raise `ValueError` at text_chunker.py:66, on every text.
  - A zero batch size raises `ZeroDivisionError` at text_chunker.py:67, the batch-count division, before the loop's `range` at line 72 is reached; this too happens on every text, the empty one included.
  - A negative step (`overlap > chunk_size`) makes `starts` empty at line 66, and a negative batch size makes `range(0, len(starts), batch_size)` at line 72 empty: in both cases the result is `[]` and no slice is taken.
  - A negative `chunk_size` with a positive step reaches a Python negative-index slice (text_chunker.py:43 and 53), and a negative `max_chunks` stops after the first batch and slices at line 88 from the end.
  - None of these parameter cases is modelled.
- `Ranking.TopIndices` does not fix how equal scores are ordered. `np.argsort` uses an unstable sort, so the order among ties is left unspecified rather than stable.
- `Fallback.ExtractFallbackAnswer`: the author branch raises `TypeError` whenever an author pattern matches, because `match.lastgroup` is `None` for unnamed groups (line 145). So it never returns an author answer. This is modelled as written, and no corrected author branch is modelled.
- For an empty chunk list, `cosine_similarity` (question_answerer.py:63) fails in the program before lines 184 and 194 are reached. The model takes the scores as given, so what it says about an empty chunk list, including the `IndexError` at `chunks[0]`, is what the code after line 63 does.
- The extractive reader (`QAModel`) is a total function: the model assumes it never fails. A failure of the reader would propagate out of `answer_question`; `Answerer.NeuralPathReturns` and `Answerer.PlainQuestionNeverRaises` rely on this assumption.
- Other files of the repository are not part of this model: `pdf_processor.py`, `document_embedder.py` and the `app/` package.

## Behaviour of the code worth noting

- A chunk is at most `chunk_size` characters long. The end is capped at `start + chunk_size` (text_chunker.py:49), and the boundary search only moves it back (text_chunker.py:31-34); `Chunker.PieceEnd` and `Chunker.ChunkShape` state the bound.
- Ties in the ranking are ordered by `np.argsort` (question_answerer.py:75), whose default sort is not stable. `Ranking.TopIndices` leaves the order among equal scores open.
- The keyword boost multiplies the similarity (question_answerer.py:72). For a negative cosine similarity, more keyword matches push a chunk down; `Ranking.BoostPenalisesNegative` proves this.
- The chunker checks none of its parameters (text_chunker.py:15-18). Invalid values surface as Python's own `range`, integer division and slicing behaviour at text_chunker.py:66, 67, 72 and 88.
- The focus answers' length guard (question_answerer.py:112) runs before double spaces are halved (line 114), so an accepted answer can be shorter than 10 characters.

=== FILE: answerer.dfy ===
/** The answer synthesizer (`analyze_document`, `answer_question`): an
    optional early pattern answer, then the neural reader, its acceptance
    test, a pattern override and a raw pass-through. The reader and the
    regular-expression helpers are oracles passed in as functions. */
module Answerer {
  import opened Wrappers
  import opened Text
  import Ranking
  import opened Fallback

  /** What the extractive reader is asked. */
  datatype QARequest = QARequest(question: string, context: string, maxAnswerLen: nat, handleImpossibleAnswer: bool)

  /** What the extractive reader answers. */
  datatype QAResult = QAResult(answer: string, score: real)

  /** The extractive question-answering pipeline. */
  type QAModel = QARequest -> QAResult

  /** `re.escape`. */
  type Escape = string -> string

  /** The result handed back to the caller. */
  datatype Answer = Answer(answer: string, confidence: real, context: string)

  /** The per-instance state: whether the document was analysed, and the
      instance's list of focus patterns. */
  datatype State = State(analyzed: bool, focusPatterns: seq<Rule>)

  /** The state after a call together with what the call returned or raised;
      the state survives an exception. */
  datatype Reply = Reply(state: State, outcome: Outcome<Answer>)

  /** The instance's focus patterns as the constructor sets them. */
  const InitialFocusPatterns: seq<Rule> := [
    Rule(@"(?:title|subject):\s*([\w\s-]+)", 0.95),
    Rule(@"^(?:chapter|section)\s+\d+[:.]\s*([\w\s-]+)", 0.9),
    Rule(@"(?:about|discusses|covers|explains)\s+([\w\s-]+)", 0.85),
    Rule(@"(?:guide|manual|book)\s+(?:for|on|about)\s+([\w\s-]+)", 0.8),
    Rule(@"(?:focuses?|focusing)\s+on\s+([\w\s-]+)", 0.75),
    Rule(@"main\s+(?:topic|subject|focus)\s+(?:is|:)\s+([\w\s-]+)", 0.7),
    Rule(@"(?:provides|offers)\s+([\w\s-]+)", 0.65)
  ]

  const InitialState := State(false, InitialFocusPatterns)

  /** Question words that send the question to the patterns first. */
  const EarlyWords: seq<string> := ["focus", "subject", "about", "main"]

  const TopK := 5
  const MaxAnswerLen: nat := 150
  const MinConfidence := 0.3
  const LearnedConfidence := 0.98
  const EarlyContextChunks: nat := 2

  /** Length of the match of `^([^.!?\n]+)`: the longest prefix free of
      sentence terminators (zero means no match). */
  function TitleLength(s: string): (n: nat)
    ensures n <= |s|
    ensures forall i :: 0 <= i < n ==> !IsTerminator(s[i])
    ensures n == |s| || IsTerminator(s[n])
  {
    if |s| > 0 && !IsTerminator(s[0]) then 1 + TitleLength(s[1..]) else 0
  }

  /** The pattern learned from a title. */
  function TitleRule(title: string, escape: Escape): Rule {
    Rule("(?:" + escape(Strip(title)) + ")", LearnedConfidence)
  }

  /** `analyze_document`: when the first chunk opens with a title, put a
      pattern for it in front of the instance's focus patterns. */
  function AnalyzeDocument(st: State, firstChunk: string, escape: Escape): (st': State)
    ensures st'.analyzed == st.analyzed
    ensures |firstChunk| > 0 && !IsTerminator(firstChunk[0]) ==>
              && |st'.focusPatterns| == |st.focusPatterns| + 1
              && st'.focusPatterns[0] == TitleRule(firstChunk[..TitleLength(firstChunk)], escape)
              && st'.focusPatterns[1..] == st.focusPatterns
    ensures |firstChunk| == 0 || IsTerminator(firstChunk[0]) ==> st' == st
  {
    var n := TitleLength(firstChunk);
    if n > 0 then
      st.(focusPatterns := [TitleRule(firstChunk[..n], escape)] + st.focusPatterns)
    else st
  }

  /** The acceptance test of the reader's result. */
  predicate Accepted(r: QAResult) {
    |Strip(r.answer)| > 0 && r.score >= MinConfidence
  }

  /** The request the reader gets for a context. */
  function Request(question: string, context: string): QARequest {
    QARequest(question, context, MaxAnswerLen, true)
  }

  /** The neural path: ask the reader over the joined chunks, keep an
      accepted result, else let a pattern answer override answer and score. */
  function NeuralPath(search: Search, qa: QAModel, question: string, relevant: seq<string>)
    : (r: Outcome<Answer>)
    ensures r.Return? ==> r.value.context == Join(" ", relevant)
    ensures r == Raise(IndexError) ==> AsksFocus(question) && |relevant| == 0
    ensures r == Raise(TypeError) ==> !AsksFocus(question) && AsksAuthor(question)
    ensures Accepted(qa(Request(question, Join(" ", relevant)))) ==>
              r == Return(Answer(qa(Request(question, Join(" ", relevant))).answer,
                                 qa(Request(question, Join(" ", relevant))).score,
                                 Join(" ", relevant)))
  {
    var context := Join(" ", relevant);
    var result := qa(Request(question, context));
    if !Accepted(result) then
      match ExtractFallbackAnswer(search, question, relevant)
      case Raise(e) => Raise(e)
      case Return(Some(f)) => Return(Answer(f.answer, f.score, context))
      case Return(None) => Return(Answer(result.answer, result.score, context))
    else Return(Answer(result.answer, result.score, context))
  }

  /** The state update at the start of `answer_question`. */
  function Prepare(st: State, chunks: seq<string>, escape: Escape): (st': State)
    ensures st'.analyzed == (st.analyzed || |chunks| > 0)
  {
    if |chunks| > 0 && !st.analyzed then AnalyzeDocument(st, chunks[0], escape).(analyzed := true)
    else st
  }

  /** Whether the question goes to the patterns before the reader. */
  predicate AsksEarly(question: string) {
    ContainsAny(Lower(question), EarlyWords)
  }

  /** What `answer_question` returns or raises, given the ranked chunks
      `relevant`; nothing here reads the instance state. */
  function Respond(search: Search, qa: QAModel, question: string, chunks: seq<string>, relevant: seq<string>)
    : (r: Outcome<Answer>)
    ensures |chunks| == 0 && AsksEarly(question) ==> r == Raise(IndexError)
    ensures r == Raise(IndexError) ==> AsksEarly(question) && (|chunks| == 0 || |relevant| == 0)
    ensures r == Raise(TypeError) ==> !AsksFocus(question) && AsksAuthor(question)
  {
    FocusIsEarly(question);
    if AsksEarly(question) then
      if |chunks| == 0 then Raise(IndexError)
      else
        match ExtractFallbackAnswer(search, question, [chunks[0]] + relevant)
        case Raise(e) => Raise(e)
        case Return(Some(f)) =>
          Return(Answer(f.answer, f.score, Join(" ", Take(relevant, EarlyContextChunks))))
        case Return(None) => NeuralPath(search, qa, question, relevant)
    else NeuralPath(search, qa, question, relevant)
  }

  /** `answer_question`, with the cosine similarities given as `scores`. */
  function AnswerQuestion(st: State, search: Search, escape: Escape, qa: QAModel,
                          question: string, scores: seq<real>, chunks: seq<string>): (r: Reply)
    requires |scores| == |chunks|
    ensures r.state.analyzed == (st.analyzed || |chunks| > 0)
    ensures r.outcome == Raise(IndexError) <==> |chunks| == 0 && AsksEarly(question)
    ensures r.outcome == Raise(TypeError) ==> !AsksFocus(question) && AsksAuthor(question)
  {
    Reply(Prepare(st, chunks, escape),
          Respond(search, qa, question, chunks, Ranking.FindRelevantChunks(question, scores, chunks, TopK)))
  }

  // ---------------------------------------------------------------------
  // Properties of `answer_question`.

  /** The chunks `answer_question` ranks. */
  function Relevant(question: string, scores: seq<real>, chunks: seq<string>): seq<string>
    requires |scores| == |chunks|
  {
    Ranking.FindRelevantChunks(question, scores, chunks, TopK)
  }

  /** Early path: for a focus-like question whose pattern search over the
      first chunk and the ranked chunks succeeds, that answer is returned
      with the first two ranked chunks as context, and the reader is never
      consulted: any two readers give the same reply. */
  lemma EarlyPatternAnswerWins(st: State, search: Search, escape: Escape, qa1: QAModel, qa2: QAModel,
                               question: string, scores: seq<real>, chunks: seq<string>)
    requires |scores| == |chunks|
    requires AsksEarly(question)
    requires |chunks| > 0
    requires ExtractFallbackAnswer(search, question, [chunks[0]] + Relevant(question, scores, chunks)).Return?
    requires ExtractFallbackAnswer(search, question, [chunks[0]] + Relevant(question, scores, chunks)).value.Some?
    ensures var f := ExtractFallbackAnswer(search, question, [chunks[0]] + Relevant(question, scores, chunks)).value.value;
            var rel := Relevant(question, scores, chunks);
            AnswerQuestion(st, search, escape, qa1, question, scores, chunks).outcome
            == Return(Answer(f.answer, f.score, Join(" ", rel[..if |rel| < 2 then |rel| else 2])))
    ensures AnswerQuestion(st, search, escape, qa1, question, scores, chunks)
            == AnswerQuestion(st, search, escape, qa2, question, scores, chunks)
  {
    var rel := Relevant(question, scores, chunks);
    var x := ExtractFallbackAnswer(search, question, [chunks[0]] + rel);
    var f := x.value.value;
    assert x == Return(Some(f));
    var out := Return(Answer(f.answer, f.score, Join(" ", Take(rel, EarlyContextChunks))));
    assert Respond(search, qa1, question, chunks, rel) == out;
    assert Respond(search, qa2, question, chunks, rel) == out;
  }

  /** Neural path: when no early pattern answer is returned, the context is
      the join of all ranked chunks; an accepted reader result is kept
      as is; otherwise a pattern answer replaces answer and score, and
      without one the raw reader result is passed through. */
  lemma NeuralOutcome(st: State, search: Search, escape: Escape, qa: QAModel,
                      question: string, scores: seq<real>, chunks: seq<string>)
    requires |scores| == |chunks|
    requires AsksEarly(question) ==>
               |chunks| > 0 && ExtractFallbackAnswer(search, question, [chunks[0]] + Relevant(question, scores, chunks)) == Return(None)
    ensures var rel := Relevant(question, scores, chunks);
            var context := Join(" ", rel);
            var raw := qa(Request(question, context));
            var out := AnswerQuestion(st, search, escape, qa, question, scores, chunks).outcome;
            && (Accepted(raw) ==> out == Return(Answer(raw.answer, raw.score, context)))
            && (!Accepted(raw) ==>
                  match ExtractFallbackAnswer(search, question, rel)
                  case Raise(e) => out == Raise(e)
                  case Return(Some(f)) => out == Return(Answer(f.answer, f.score, context))
                  case Return(None) => out == Return(Answer(raw.answer, raw.score, context)))
  {
  }

  /** The document is analysed at most once per instance: a second call
      leaves the focus patterns as the first call left them. */
  lemma AnalyzedOnce(st: State, search: Search, escape: Escape, qa: QAModel,
                     q1: string, s1: seq<real>, c1: seq<string>,
                     q2: string, s2: seq<real>, c2: seq<string>)
    requires |s1| == |c1| && |s2| == |c2|
    requires |c1| > 0
    ensures var st1 := AnswerQuestion(st, search, escape, qa, q1, s1, c1).state;
            var st2 := AnswerQuestion(st1, search, escape, qa, q2, s2, c2).state;
            st1.analyzed && st2 == st1
  {
  }

  /** The first call on a non-empty chunk list inserts exactly one rule of
      confidence 0.98 in front of the focus patterns when the first chunk
      opens with a title, and none otherwise; the others keep their order. */
  lemma FirstAnalysisInsertsTitleRule(st: State, search: Search, escape: Escape, qa: QAModel,
                                      question: string, scores: seq<real>, chunks: seq<string>)
    requires |scores| == |chunks|
    requires !st.analyzed && |chunks| > 0
    ensures var st' := AnswerQuestion(st, search, escape, qa, question, scores, chunks).state;
            && (|chunks[0]| > 0 && !IsTerminator(chunks[0][0]) ==>
                  && |st'.focusPatterns| == |st.focusPatterns| + 1
                  && st'.focusPatterns[0].confidence == 0.98
                  && st'.focusPatterns[1..] == st.focusPatterns)
            && (|chunks[0]| == 0 || IsTerminator(chunks[0][0]) ==> st'.focusPatterns == st.focusPatterns)
  {
  }

  /** A fresh instance: the first call on a non-empty chunk list marks the
      document analysed and leaves the constructor's seven focus patterns
      behind the title rule, or alone when the first chunk has no title. */
  lemma FreshInstanceFirstCall(search: Search, escape: Escape, qa: QAModel,
                              question: string, scores: seq<real>, chunks: seq<string>)
    requires |scores| == |chunks|
    requires |chunks| > 0
    ensures var st' := AnswerQuestion(InitialState, search, escape, qa, question, scores, chunks).state;
            && st'.analyzed
            && |st'.focusPatterns| == (if |chunks[0]| > 0 && !IsTerminator(chunks[0][0]) then 8 else 7)
            && st'.focusPatterns[|st'.focusPatterns| - 7..] == InitialFocusPatterns
  {
    FirstAnalysisInsertsTitleRule(InitialState, search, escape, qa, question, scores, chunks);
  }

  /** The focus patterns the instance keeps are never read: the outcome
      does not depend on the state. */
  lemma OutcomeIgnoresState(st1: State, st2: State, search: Search, escape: Escape, qa: QAModel,
                            question: string, scores: seq<real>, chunks: seq<string>)
    requires |scores| == |chunks|
    ensures AnswerQuestion(st1, search, escape, qa, question, scores, chunks).outcome
            == AnswerQuestion(st2, search, escape, qa, question, scores, chunks).outcome
  {
  }

  /** Every focus word is an early word. */
  lemma FocusIsEarly(question: string)
    ensures AsksFocus(question) ==> AsksEarly(question)
  {
    if AsksFocus(question) {
      var k :| 0 <= k < |FocusWords| && Contains(Lower(question), FocusWords[k]);
      assert Contains(Lower(question), EarlyWords[k]);
    }
  }

  /** Without an intent the neural path cannot raise. */
  lemma NeuralPathReturns(search: Search, qa: QAModel, question: string, relevant: seq<string>)
    requires !AsksFocus(question) && !AsksAuthor(question)
    ensures NeuralPath(search, qa, question, relevant).Return?
  {
    assert ExtractFallbackAnswer(search, question, relevant) == Return(None);
  }

  /** A question with none of the intent words never raises. */
  lemma PlainQuestionNeverRaises(st: State, search: Search, escape: Escape, qa: QAModel,
                                 question: string, scores: seq<real>, chunks: seq<string>)
    requires |scores| == |chunks|
    requires !AsksEarly(question)
    requires !AsksAuthor(question)
    ensures AnswerQuestion(st, search, escape, qa, question, scores, chunks).outcome.Return?
  {
    var rel := Relevant(question, scores, chunks);
    FocusIsEarly(question);
    NeuralPathReturns(search, qa, question, rel);
    assert Respond(search, qa, question, chunks, rel) == NeuralPath(search, qa, question, rel);
  }
}

=== FILE: chunker.dfy ===
/** The text chunker: turns one document string into an ordered list of
    overlapping, sentence-aligned chunks, bounded in size and in number. */
module Chunker {
  import opened Wrappers
  import opened Text

  /** A stripped piece shorter than this is dropped. */
  const MinChunkLength: nat := 100
  /** How far back from the naive end the sentence-boundary search looks. */
  const BoundaryWindow: nat := 50

  /** The constructor arguments of the chunker. */
  datatype Config = Config(chunkSize: int, overlap: int, maxChunks: int, batchSize: int)
  {
    /** The parameters for which the chunker is well-defined. */
    predicate Valid() {
      && 0 < chunkSize
      && overlap < chunkSize
      && 0 <= maxChunks
      && 0 < batchSize
    }

    /** Distance between consecutive start offsets. */
    function Step(): int {
      chunkSize - overlap
    }
  }

  /** The default parameters of the chunker's constructor. */
  const DefaultConfig := Config(800, 100, 1000, 50)

  /** One kept chunk: the text and the offsets of the unstripped slice. */
  datatype Piece = Piece(start: nat, end: nat, chunk: string)

  function Min(a: int, b: int): int {
    if a <= b then a else b
  }

  function Max(a: int, b: int): int {
    if a <= b then b else a
  }

  /** Position `i` ends a sentence: the character just before it is a terminator. */
  predicate IsBoundary(text: string, i: int) {
    1 <= i <= |text| && IsTerminator(text[i - 1])
  }

  /** `range(s, n, step)`: the offsets s, s+step, s+2*step, ... below n. */
  function StartsFrom(s: nat, n: nat, step: nat): (r: seq<nat>)
    requires step > 0
    ensures |r| == 0 <==> s >= n
    ensures |r| > 0 ==> r[0] == s
    decreases n - s
  {
    if s >= n then [] else [s] + StartsFrom(s + step, n, step)
  }

  /** Consecutive offsets are `step` apart, all lie in [s, n), and the last
      one is within `step` of `n`. */
  lemma {:induction false} StartsFromShape(s: nat, n: nat, step: nat)
    requires step > 0
    ensures var r := StartsFrom(s, n, step);
            && (forall k :: 0 < k < |r| ==> r[k] == r[k - 1] + step)
            && (forall k :: 0 <= k < |r| ==> s <= r[k] < n)
            && (|r| > 0 ==> r[|r| - 1] + step >= n)
    decreases n - s
  {
    if s < n {
      StartsFromShape(s + step, n, step);
      var r := StartsFrom(s, n, step);
      var rest := StartsFrom(s + step, n, step);
      assert r == [s] + rest;
      forall k | 0 < k < |r|
        ensures r[k] == r[k - 1] + step
      {
        assert r[k] == rest[k - 1];
        if k > 1 {
          assert r[k - 1] == rest[k - 2];
        }
      }
    }
  }

  /** The k-th offset of `range(s, n, step)` is `s + k*step`. */
  lemma {:induction false} StartsFromIsArithmetic(s: nat, n: nat, step: nat, k: nat)
    requires step > 0
    requires k < |StartsFrom(s, n, step)|
    ensures StartsFrom(s, n, step)[k] == s + k * step
    decreases k
  {
    if k > 0 {
      StartsFromShape(s, n, step);
      StartsFromIsArithmetic(s, n, step, k - 1);
      assert k * step == (k - 1) * step + step;
    }
  }

  /** The start offsets `range(0, len(text), step)`. */
  function Starts(n: nat, step: nat): seq<nat>
    requires step > 0
  {
    StartsFrom(0, n, step)
  }

  /** Scans positions i, i-1, ... down to just above `lo` for a sentence
      boundary; gives `end` back when there is none. */
  function ScanBack(text: string, i: nat, lo: int, end: nat): (r: nat)
    requires 0 <= lo
    requires i <= end <= |text|
    ensures r == end || (lo < r <= i && IsBoundary(text, r))
    ensures forall j :: lo < j <= i && IsBoundary(text, j) ==> j <= r <= i && IsBoundary(text, r)
    decreases i
  {
    if i <= lo then end
    else if IsTerminator(text[i - 1]) then i
    else ScanBack(text, i - 1, lo, end)
  }

  /** The last sentence boundary in the window (max(end-50, start), end],
      or `end` itself when the window holds none. */
  function FindBoundary(text: string, end: nat, start: nat): (r: nat)
    requires end <= |text|
    ensures r <= end
    ensures start < end ==> start < r
    ensures r == end || (Max(end - BoundaryWindow, start) < r && IsBoundary(text, r))
    ensures forall j :: Max(end - BoundaryWindow, start) < j <= end && IsBoundary(text, j) ==>
              j <= r && IsBoundary(text, r)
  {
    ScanBack(text, end, Max(end - BoundaryWindow, start), end)
  }

  /** The end of the slice taken at `start`: the naive end `start+chunkSize`
      capped at the text, pulled back to the nearest sentence boundary in the
      window only when it falls before the end of the text. */
  function PieceEnd(text: string, start: nat, chunkSize: nat): (e: nat)
    requires start < |text|
    requires chunkSize > 0
    ensures start < e <= |text|
    ensures e <= start + chunkSize
    ensures start + chunkSize >= |text| ==> e == |text|
    ensures start + chunkSize < |text| ==>
              start + chunkSize - BoundaryWindow < e && (e == start + chunkSize || IsBoundary(text, e))
    ensures start + chunkSize < |text| ==>
              forall j :: Max(start + chunkSize - BoundaryWindow, start) < j <= start + chunkSize && IsBoundary(text, j) ==>
                j <= e && IsBoundary(text, e)
  {
    var end := Min(start + chunkSize, |text|);
    if end < |text| then FindBoundary(text, end, start) else end
  }

  /** The piece produced for one start offset: skipped past the end of the
      text, dropped when shorter than the minimum once stripped. */
  function PieceAt(text: string, start: nat, chunkSize: nat): (p: Option<Piece>)
    requires chunkSize > 0
    ensures p.Some? ==> p.value.start == start < p.value.end <= |text|
    ensures start >= |text| ==> p == None
  {
    if start >= |text| then None
    else
      var end := PieceEnd(text, start, chunkSize);
      var chunk := Strip(text[start..end]);
      if |chunk| >= MinChunkLength then Some(Piece(start, end, chunk)) else None
  }

  /** A kept piece spans at most `chunkSize` characters of the text, its
      chunk is between the minimum and the chunk size long, carries no outer
      whitespace, and sits in the text just after the slice's leading
      whitespace. */
  lemma PieceShape(text: string, p: Piece, chunkSize: nat)
    requires chunkSize > 0
    requires PieceAt(text, p.start, chunkSize) == Some(p)
    ensures p.end - p.start <= chunkSize
    ensures MinChunkLength <= |p.chunk| <= chunkSize
    ensures NoOuterSpace(p.chunk)
    ensures OccursAt(p.chunk, text, p.start + LeadingSpace(text[p.start..p.end]))
    ensures Contains(text, p.chunk)
  {
    var slice := text[p.start..p.end];
    var a := LeadingSpace(slice);
    assert p.chunk == Strip(slice);
    assert p.end == PieceEnd(text, p.start, chunkSize);
    assert StrippedAt(p.chunk, slice, a);
    OccursInSlice(text, p.start, p.end, a, p.chunk);
  }

  /** What occurs at offset `a` of the slice `text[i..j]` occurs at offset
      `i + a` of the text. */
  lemma OccursInSlice(text: string, i: nat, j: nat, a: nat, r: string)
    requires i <= j <= |text|
    requires OccursAt(r, text[i..j], a)
    ensures OccursAt(r, text, i + a)
  {
    assert forall k :: 0 <= k < |r| ==> r[k] == text[i + a + k];
  }

  function PieceList(p: Option<Piece>): (r: seq<Piece>)
    ensures |r| <= 1
  {
    match p
    case Some(x) => [x]
    case None => []
  }

  /** Every start offset processed in order, keeping the pieces that survive. */
  function KeptPieces(text: string, starts: seq<nat>, chunkSize: nat): (ps: seq<Piece>)
    requires chunkSize > 0
    ensures |ps| <= |starts|
  {
    if |starts| == 0 then []
    else PieceList(PieceAt(text, starts[0], chunkSize)) + KeptPieces(text, starts[1..], chunkSize)
  }

  /** The chunk texts of the pieces. */
  function Texts(ps: seq<Piece>): (cs: seq<string>)
    ensures |cs| == |ps|
  {
    seq(|ps|, k requires 0 <= k < |ps| => ps[k].chunk)
  }

  /** The pieces of the whole document in output order, before the chunk
      texts are projected: every start offset, filtered, then truncated. */
  function DocumentPieces(text: string, cfg: Config): (ps: seq<Piece>)
    requires cfg.Valid()
    ensures |ps| <= cfg.maxChunks
  {
    Take(KeptPieces(text, Starts(|text|, cfg.Step()), cfg.chunkSize), cfg.maxChunks)
  }

  /** The chunker's output described without batches: filter every start
      offset in order and keep the first `maxChunks` survivors. */
  function Chunks(text: string, cfg: Config): (cs: seq<string>)
    requires cfg.Valid()
    ensures |cs| <= cfg.maxChunks
  {
    Texts(DocumentPieces(text, cfg))
  }

  // ---------------------------------------------------------------------
  // The batched implementation, as written.

  function MaxOf(s: seq<nat>): (m: nat)
    requires |s| > 0
    ensures forall k :: 0 <= k < |s| ==> s[k] <= m
  {
    if |s| == 1 then s[0] else Max(s[0], MaxOf(s[1..]))
  }

  /** The body of `process_batch`'s loop for one start offset, working on a
      prefix `slice` of the text: nothing, or one (chunk, end) pair. */
  function ProcessStart(slice: string, start: nat, textLength: nat, chunkSize: nat)
    : (r: seq<(string, nat)>)
    requires chunkSize > 0
    requires |slice| <= textLength
    requires start < textLength ==> Min(start + chunkSize, textLength) <= |slice|
  {
    if start >= textLength then []
    else
      var end0 := Min(start + chunkSize, textLength);
      var end := if end0 < textLength then FindBoundary(slice, end0, start) else end0;
      var chunk := Strip(slice[start..end]);
      // `if chunk and len(chunk) >= 100`: the emptiness test is implied.
      if |chunk| >= MinChunkLength then [(chunk, end)] else []
  }

  /** The loop of `process_batch` over a prefix `slice` of the text; it
      returns the kept chunks paired with their unstripped ends. */
  function ProcessStarts(slice: string, starts: seq<nat>, textLength: nat, chunkSize: nat)
    : (r: seq<(string, nat)>)
    requires chunkSize > 0
    requires |slice| <= textLength
    requires forall k :: 0 <= k < |starts| && starts[k] < textLength ==>
               Min(starts[k] + chunkSize, textLength) <= |slice|
  {
    if |starts| == 0 then []
    else ProcessStart(slice, starts[0], textLength, chunkSize)
         + ProcessStarts(slice, starts[1..], textLength, chunkSize)
  }

  /** `process_batch`: processes one batch of start offsets on the prefix of
      the text that the batch's last piece can reach. */
  function ProcessBatch(text: string, starts: seq<nat>, textLength: nat, chunkSize: nat)
    : (r: seq<(string, nat)>)
    requires chunkSize > 0
    requires textLength == |text|
    requires |starts| > 0
    ensures |r| <= |starts|
    ensures r == Pairs(KeptPieces(text, starts, chunkSize))
  {
    var batchEnd := Min(MaxOf(starts) + chunkSize, textLength);
    var slice := text[..batchEnd];
    BatchPrefixCovers(starts, chunkSize, textLength);
    PrefixSliceTransparent(text, slice, starts, chunkSize);
    ProcessStarts(slice, starts, textLength, chunkSize)
  }

  function Pairs(ps: seq<Piece>): (r: seq<(string, nat)>)
    ensures |r| == |ps|
  {
    seq(|ps|, k requires 0 <= k < |ps| => (ps[k].chunk, ps[k].end))
  }

  function Firsts(r: seq<(string, nat)>): (cs: seq<string>)
    ensures |cs| == |r|
  {
    seq(|r|, k requires 0 <= k < |r| => r[k].0)
  }

  lemma {:induction false} FirstsOfPairs(ps: seq<Piece>)
    ensures Firsts(Pairs(ps)) == Texts(ps)
  {
    if |ps| > 0 {
      FirstsOfPairs(ps[1..]);
    }
  }

  lemma {:induction false} TextsAppend(p: seq<Piece>, q: seq<Piece>)
    ensures Texts(p + q) == Texts(p) + Texts(q)
  {
    if |p| > 0 {
      assert (p + q)[1..] == p[1..] + q;
      TextsAppend(p[1..], q);
    } else {
      assert p + q == q;
    }
  }

  /** One pass of the batch loop extends the chunks of the offsets already
      processed by the chunks of the next batch. */
  lemma BatchStep(text: string, starts: seq<nat>, lo: nat, hi: nat, chunkSize: nat)
    requires chunkSize > 0
    requires lo < hi <= |starts|
    ensures Texts(KeptPieces(text, starts[..lo], chunkSize))
              + Firsts(ProcessBatch(text, starts[lo..hi], |text|, chunkSize))
            == Texts(KeptPieces(text, starts[..hi], chunkSize))
  {
    var batch := starts[lo..hi];
    assert starts[..lo] + batch == starts[..hi];
    KeptPiecesAppend(text, starts[..lo], batch, chunkSize);
    FirstsOfPairs(KeptPieces(text, batch, chunkSize));
    TextsAppend(KeptPieces(text, starts[..lo], chunkSize), KeptPieces(text, batch, chunkSize));
  }

  /** The batch prefix reaches the naive end of every piece in the batch. */
  lemma BatchPrefixCovers(starts: seq<nat>, chunkSize: nat, n: nat)
    requires |starts| > 0
    ensures forall k :: 0 <= k < |starts| && starts[k] < n ==>
              Min(starts[k] + chunkSize, n) <= Min(MaxOf(starts) + chunkSize, n)
  {
  }

  /** The boundary search only reads positions below `end`. */
  lemma {:induction false} ScanBackPrefix(text: string, slice: string, i: nat, lo: int, end: nat)
    requires 0 <= lo
    requires i <= end <= |slice| <= |text|
    requires slice == text[..|slice|]
    ensures ScanBack(slice, i, lo, end) == ScanBack(text, i, lo, end)
    decreases i
  {
    if i > lo && !IsTerminator(text[i - 1]) {
      ScanBackPrefix(text, slice, i - 1, lo, end);
    }
  }

  /** For one start offset, the loop body on the prefix yields the piece the
      whole text yields. */
  lemma StartOnPrefix(text: string, slice: string, start: nat, chunkSize: nat)
    requires chunkSize > 0
    requires |slice| <= |text| && slice == text[..|slice|]
    requires start < |text| ==> Min(start + chunkSize, |text|) <= |slice|
    ensures ProcessStart(slice, start, |text|, chunkSize) == Pairs(PieceList(PieceAt(text, start, chunkSize)))
  {
    var n := |text|;
    if start < n {
      var end0 := Min(start + chunkSize, n);
      var end := PieceEnd(text, start, chunkSize);
      assert (if end0 < n then FindBoundary(slice, end0, start) else end0) == end by {
        if end0 < n {
          ScanBackPrefix(text, slice, end0, Max(end0 - BoundaryWindow, start), end0);
        }
      }
      assert slice[start..end] == text[start..end];
    }
  }

  lemma {:induction false} PairsAppend(p: seq<Piece>, q: seq<Piece>)
    ensures Pairs(p + q) == Pairs(p) + Pairs(q)
  {
    if |p| > 0 {
      assert (p + q)[1..] == p[1..] + q;
      PairsAppend(p[1..], q);
    } else {
      assert p + q == q;
    }
  }

  /** Working on a prefix of the text that reaches every naive end, as
      `text[:batch_end]` does, gives the same pieces as the whole text. */
  lemma {:induction false} PrefixSliceTransparent(text: string, slice: string, starts: seq<nat>, chunkSize: nat)
    requires chunkSize > 0
    requires |slice| <= |text| && slice == text[..|slice|]
    requires forall k :: 0 <= k < |starts| && starts[k] < |text| ==>
               Min(starts[k] + chunkSize, |text|) <= |slice|
    ensures ProcessStarts(slice, starts, |text|, chunkSize) == Pairs(KeptPieces(text, starts, chunkSize))
  {
    if |starts| > 0 {
      PrefixSliceTransparent(text, slice, starts[1..], chunkSize);
      StartOnPrefix(text, slice, starts[0], chunkSize);
      PairsAppend(PieceList(PieceAt(text, starts[0], chunkSize)), KeptPieces(text, starts[1..], chunkSize));
    }
  }

  lemma {:induction false} KeptPiecesAppend(text: string, a: seq<nat>, b: seq<nat>, chunkSize: nat)
    requires chunkSize > 0
    ensures KeptPieces(text, a + b, chunkSize) == KeptPieces(text, a, chunkSize) + KeptPieces(text, b, chunkSize)
  {
    if |a| > 0 {
      assert (a + b)[1..] == a[1..] + b;
      KeptPiecesAppend(text, a[1..], b, chunkSize);
    } else {
      assert a + b == b;
    }
  }

  lemma TextsTake(ps: seq<Piece>, m: nat)
    ensures Texts(Take(ps, m)) == Take(Texts(ps), m)
  {
    var a, b := Texts(Take(ps, m)), Take(Texts(ps), m);
    assert |a| == |b|;
    forall k | 0 <= k < |a|
      ensures a[k] == b[k]
    {
      assert Take(ps, m)[k] == ps[k];
    }
  }

  lemma TakeAppend<T>(a: seq<T>, b: seq<T>, m: nat)
    requires m <= |a|
    ensures Take(a + b, m) == Take(a, m)
  {
    assert (a + b)[..m] == a[..m];
  }

  /** Once the offsets below `hi` already yield `maxChunks` chunks, the
      first `maxChunks` of them are the chunker's output. */
  lemma EarlyExit(text: string, cfg: Config, hi: nat, chunks: seq<string>)
    requires cfg.Valid()
    requires hi <= |Starts(|text|, cfg.Step())|
    requires chunks == Texts(KeptPieces(text, Starts(|text|, cfg.Step())[..hi], cfg.chunkSize))
    requires |chunks| >= cfg.maxChunks
    ensures Take(chunks, cfg.maxChunks) == Chunks(text, cfg)
  {
    var starts := Starts(|text|, cfg.Step());
    KeptPiecesSplit(text, starts, hi, cfg.chunkSize);
    TakeOfFront(KeptPieces(text, starts[..hi], cfg.chunkSize), KeptPieces(text, starts[hi..], cfg.chunkSize), cfg.maxChunks);
  }

  lemma KeptPiecesSplit(text: string, starts: seq<nat>, hi: nat, chunkSize: nat)
    requires chunkSize > 0
    requires hi <= |starts|
    ensures KeptPieces(text, starts, chunkSize)
            == KeptPieces(text, starts[..hi], chunkSize) + KeptPieces(text, starts[hi..], chunkSize)
  {
    assert starts[..hi] + starts[hi..] == starts;
    KeptPiecesAppend(text, starts[..hi], starts[hi..], chunkSize);
  }

  lemma TakeOfFront(front: seq<Piece>, back: seq<Piece>, m: nat)
    requires |front| >= m
    ensures Take(Texts(front), m) == Texts(Take(front + back, m))
  {
    TakeAppend(front, back, m);
    TextsTake(front, m);
  }

  /** `split_into_chunks`: the batched loop with the early exit once
      `maxChunks` chunks are held, then the final truncation. */
  method SplitIntoChunks(text: string, cfg: Config) returns (chunks: seq<string>)
    requires cfg.Valid()
    ensures chunks == Chunks(text, cfg)
  {
    var starts := Starts(|text|, cfg.Step());
    var n := |starts|;
    chunks := [];
    var batchIdx := 0;
    while batchIdx < n
      invariant 0 <= batchIdx
      invariant chunks == Texts(KeptPieces(text, starts[..Min(batchIdx, n)], cfg.chunkSize))
      invariant batchIdx > 0 ==> |chunks| < cfg.maxChunks
      decreases n - batchIdx
    {
      var hi := Min(batchIdx + cfg.batchSize, n);
      var results := ProcessBatch(text, starts[batchIdx..hi], |text|, cfg.chunkSize);
      assert chunks + Firsts(results) == Texts(KeptPieces(text, starts[..hi], cfg.chunkSize)) by {
        assert Min(batchIdx, n) == batchIdx;
        BatchStep(text, starts, batchIdx, hi, cfg.chunkSize);
      }
      chunks := chunks + Firsts(results);
      if |chunks| >= cfg.maxChunks {
        // Leaving the loop early: return `chunks[:max_chunks]` at once.
        EarlyExit(text, cfg, hi, chunks);
        chunks := Take(chunks, cfg.maxChunks);
        return;
      }
      batchIdx := batchIdx + cfg.batchSize;
      assert Min(batchIdx, n) == hi;
    }
    assert Take(chunks, cfg.maxChunks) == Chunks(text, cfg) by {
      assert starts[..Min(batchIdx, n)] == starts;
      TextsTake(KeptPieces(text, starts, cfg.chunkSize), cfg.maxChunks);
    }
    chunks := Take(chunks, cfg.maxChunks);
  }

  // ---------------------------------------------------------------------
  // Properties of the chunker's output.

  /** Strictly increasing offsets. */
  ghost predicate Increasing(s: seq<nat>) {
    forall i, j :: 0 <= i < j < |s| ==> s[i] < s[j]
  }

  function PieceStarts(ps: seq<Piece>): (r: seq<nat>)
    ensures |r| == |ps|
    ensures forall k :: 0 <= k < |ps| ==> r[k] == ps[k].start
  {
    seq(|ps|, k requires 0 <= k < |ps| => ps[k].start)
  }

  /** `p` is exactly what its own start offset produces. */
  ghost predicate Produced(text: string, p: Piece, chunkSize: nat)
    requires chunkSize > 0
  {
    PieceAt(text, p.start, chunkSize) == Some(p)
  }

  /** Each kept piece is what its own start offset produces, and its offset
      is one of the given offsets. */
  lemma {:induction false} KeptPiecesProduced(text: string, starts: seq<nat>, chunkSize: nat)
    requires chunkSize > 0
    ensures forall p :: p in KeptPieces(text, starts, chunkSize) ==>
              Produced(text, p, chunkSize) && p.start in starts
  {
    if |starts| > 0 {
      KeptPiecesProduced(text, starts[1..], chunkSize);
      var head := PieceList(PieceAt(text, starts[0], chunkSize));
      assert KeptPieces(text, starts, chunkSize) == head + KeptPieces(text, starts[1..], chunkSize);
    }
  }

  /** Processing one more offset in front either keeps nothing or puts the
      piece of that offset in front. */
  lemma KeptHead(text: string, starts: seq<nat>, chunkSize: nat)
    requires chunkSize > 0
    requires |starts| > 0
    ensures var ps := KeptPieces(text, starts, chunkSize);
            var tail := KeptPieces(text, starts[1..], chunkSize);
            || ps == tail
            || (|ps| == |tail| + 1 && ps[0].start == starts[0] && ps[1..] == tail)
  {
    var head := PieceList(PieceAt(text, starts[0], chunkSize));
    var tail := KeptPieces(text, starts[1..], chunkSize);
    assert KeptPieces(text, starts, chunkSize) == head + tail;
    assert (head + tail)[|head|..] == tail;
  }

  /** Every kept piece starts at one of the given offsets. */
  lemma {:induction false} KeptPiecesStartsIn(text: string, starts: seq<nat>, chunkSize: nat)
    requires chunkSize > 0
    ensures forall p :: p in KeptPieces(text, starts, chunkSize) ==> p.start in starts
  {
    if |starts| > 0 {
      KeptHead(text, starts, chunkSize);
      KeptPiecesStartsIn(text, starts[1..], chunkSize);
      var ps := KeptPieces(text, starts, chunkSize);
      forall p | p in ps
        ensures p.start in starts
      {
        var k :| 0 <= k < |ps| && ps[k] == p;
        if ps != KeptPieces(text, starts[1..], chunkSize) && k > 0 {
          assert p == ps[1..][k - 1];
        }
      }
    }
  }

  /** Kept pieces come out in the order of their offsets. */
  lemma {:induction false} KeptPiecesIncreasing(text: string, starts: seq<nat>, chunkSize: nat)
    requires chunkSize > 0
    requires Increasing(starts)
    ensures Increasing(PieceStarts(KeptPieces(text, starts, chunkSize)))
  {
    if |starts| > 0 {
      assert Increasing(starts[1..]);
      KeptPiecesIncreasing(text, starts[1..], chunkSize);
      KeptHead(text, starts, chunkSize);
      HeadBeforeTail(text, starts, chunkSize);
      var ps, tail := KeptPieces(text, starts, chunkSize), KeptPieces(text, starts[1..], chunkSize);
      if ps != tail {
        IncreasingStep(ps, tail, starts[0]);
      }
    }
  }

  /** Putting a piece that starts before all others in front keeps the
      starts increasing. */
  lemma IncreasingStep(ps: seq<Piece>, tail: seq<Piece>, x: nat)
    requires Increasing(PieceStarts(tail))
    requires |ps| == |tail| + 1 && ps[0].start == x && ps[1..] == tail
    requires forall p :: p in tail ==> x < p.start
    ensures Increasing(PieceStarts(ps))
  {
    var r, rt := PieceStarts(ps), PieceStarts(tail);
    forall k | 0 <= k < |rt|
      ensures r[k + 1] == rt[k] && x < rt[k]
    {
      assert ps[k + 1] == tail[k] && tail[k] in tail;
    }
    forall i, j | 0 <= i < j < |r|
      ensures r[i] < r[j]
    {
      if 0 < i {
        assert r[i] == rt[i - 1] && r[j] == rt[j - 1];
      } else {
        assert r[j] == rt[j - 1];
      }
    }
  }

  /** The piece of the first offset starts before every later kept piece. */
  lemma HeadBeforeTail(text: string, starts: seq<nat>, chunkSize: nat)
    requires chunkSize > 0
    requires |starts| > 0
    requires Increasing(starts)
    ensures forall p :: p in KeptPieces(text, starts[1..], chunkSize) ==> starts[0] < p.start
  {
    var rest := starts[1..];
    KeptPiecesStartsIn(text, rest, chunkSize);
    forall p | p in KeptPieces(text, rest, chunkSize)
      ensures starts[0] < p.start
    {
      var k :| 0 <= k < |rest| && rest[k] == p.start;
      assert starts[k + 1] == rest[k];
    }
  }

  lemma {:induction false} StartsFromIncreasing(s: nat, n: nat, step: nat)
    requires step > 0
    ensures Increasing(StartsFrom(s, n, step))
    decreases n - s
  {
    if s < n {
      var r := StartsFrom(s, n, step);
      var rest := StartsFrom(s + step, n, step);
      StartsFromIncreasing(s + step, n, step);
      StartsFromShape(s + step, n, step);
      assert r == [s] + rest;
      forall i, j | 0 <= i < j < |r|
        ensures r[i] < r[j]
      {
        assert r[j] == rest[j - 1];
        if 0 < i {
          assert r[i] == rest[i - 1];
        }
      }
    }
  }

  /** The shape of one chunk, from the piece that produced it. */
  lemma ChunkShapeAt(text: string, cfg: Config, k: nat)
    requires cfg.Valid()
    requires k < |Chunks(text, cfg)|
    ensures var c := Chunks(text, cfg)[k];
            && MinChunkLength <= |c| <= cfg.chunkSize
            && NoOuterSpace(c)
            && Contains(text, c)
  {
    var starts := Starts(|text|, cfg.Step());
    var all := KeptPieces(text, starts, cfg.chunkSize);
    KeptPiecesProduced(text, starts, cfg.chunkSize);
    var p := DocumentPieces(text, cfg)[k];
    assert p == all[k] && p in all;
    assert Produced(text, p, cfg.chunkSize);
    PieceShape(text, p, cfg.chunkSize);
    assert Chunks(text, cfg)[k] == p.chunk;
  }

  /** Every chunk is a stripped, contiguous substring of the text whose
      length lies between the minimum and the chunk size. */
  lemma ChunkShape(text: string, cfg: Config)
    requires cfg.Valid()
    ensures forall c :: c in Chunks(text, cfg) ==>
              && MinChunkLength <= |c| <= cfg.chunkSize
              && NoOuterSpace(c)
              && Contains(text, c)
  {
    var cs := Chunks(text, cfg);
    forall c | c in cs
      ensures MinChunkLength <= |c| <= cfg.chunkSize && NoOuterSpace(c) && Contains(text, c)
    {
      var k :| 0 <= k < |cs| && cs[k] == c;
      ChunkShapeAt(text, cfg, k);
    }
  }

  /** Chunks come out in strictly increasing order of their start offsets. */
  lemma ChunkOrder(text: string, cfg: Config)
    requires cfg.Valid()
    ensures |DocumentPieces(text, cfg)| == |Chunks(text, cfg)|
    ensures Increasing(PieceStarts(DocumentPieces(text, cfg)))
  {
    var starts := Starts(|text|, cfg.Step());
    var all := KeptPieces(text, starts, cfg.chunkSize);
    StartsFromIncreasing(0, |text|, cfg.Step());
    KeptPiecesIncreasing(text, starts, cfg.chunkSize);
    var ps := DocumentPieces(text, cfg);
    assert PieceStarts(ps) == PieceStarts(all)[..|ps|];
  }

  /** Each chunk is the stripped slice between one offset of
      `range(0, len(text), step)` and the end the boundary search chose. */
  lemma ChunkOrigin(text: string, cfg: Config, k: nat)
    requires cfg.Valid()
    requires k < |Chunks(text, cfg)|
    ensures var p := DocumentPieces(text, cfg)[k];
            && p.start in Starts(|text|, cfg.Step())
            && p.start < |text|
            && p.end == PieceEnd(text, p.start, cfg.chunkSize)
            && Chunks(text, cfg)[k] == Strip(text[p.start..p.end])
  {
    var starts := Starts(|text|, cfg.Step());
    var all := KeptPieces(text, starts, cfg.chunkSize);
    KeptPiecesProduced(text, starts, cfg.chunkSize);
    var p := DocumentPieces(text, cfg)[k];
    assert p == all[k] && p in all;
    assert Produced(text, p, cfg.chunkSize);
  }

  /** A text shorter than the minimum chunk length yields no chunk. */
  lemma {:induction false} ShortTextHasNoPieces(text: string, starts: seq<nat>, chunkSize: nat)
    requires chunkSize > 0
    requires |text| < MinChunkLength
    ensures KeptPieces(text, starts, chunkSize) == []
  {
    if |starts| > 0 {
      ShortTextHasNoPieces(text, starts[1..], chunkSize);
    }
  }

  lemma ShortTextYieldsNothing(text: string, cfg: Config)
    requires cfg.Valid()
    requires |text| < MinChunkLength
    ensures Chunks(text, cfg) == []
  {
    ShortTextHasNoPieces(text, Starts(|text|, cfg.Step()), cfg.chunkSize);
  }

  /** With the default parameters the bounds the test suite asserts hold:
      at most 1000 chunks, each of 100 to 1199 characters. */
  lemma DefaultConfigMeetsTestBounds(text: string)
    ensures |Chunks(text, DefaultConfig)| <= 1000
    ensures forall c :: c in Chunks(text, DefaultConfig) ==> 100 <= |c| < 1200
  {
    ChunkShape(text, DefaultConfig);
  }
}

=== FILE: fallback.dfy ===
/** The pattern-based fallback of the extractive answerer
    (`extract_fallback_answer`). The regular-expression engine is an oracle:
    `search(pattern, subject, ignoreCase)` gives group 1 of the first match,
    or `None` when the pattern does not match. */
module Fallback {
  import opened Wrappers
  import opened Text
  import Ranking

  /** A regular-expression oracle: pattern, subject, case-insensitive flag;
      the text of group 1 of the first match, if any. */
  type Search = (string, string, bool) -> Option<string>

  /** A pattern with the confidence reported when it supplies the answer. */
  datatype Rule = Rule(pattern: string, confidence: real)

  /** A fallback answer and its score. */
  datatype Found = Found(answer: string, score: real)

  /** The subject/focus rules, in precedence order. */
  const FocusRules: seq<Rule> := [
    Rule(@"Fifty Best Tips for (High-Tech Startups)", 0.95),
    Rule(@"Build Something Great!\s+(?:Fifty Best Tips for\s+)?([\w\s-]+Startups)", 0.9),
    Rule(@"book provides ((?:guidance|tips|advice) (?:for|to|about) [\w\s-]+)", 0.85),
    Rule(@"guide (?:for|to) (successful [\w\s-]+)", 0.8),
    Rule(@"focuses on ([\w\s-]+(?:startup|business|company|enterprise)[\w\s-]*)", 0.75),
    Rule(@"main focus is ([\w\s-]+)", 0.7),
    Rule(@"book is about ([\w\s-]+)", 0.7),
    Rule(@"Fifty Best Tips for ([\w\s-]+)", 0.6),
    Rule(@"guide to ([\w\s-]+)", 0.5)
  ]

  /** The last-resort title pattern, searched case-sensitively in the raw
      first chunk. */
  const TitlePattern := @"Build Something Great!\s+Fifty Best Tips for ([\w\s-]+)"
  const TitleScore := 0.8

  /** The author patterns, in precedence order. */
  const AuthorPatterns: seq<string> := [
    @"(?:by|authors?:?)\s+([A-Z][a-z]+\s+[A-Z][a-z]+(?:\s+and\s+[A-Z][a-z]+\s+[A-Z][a-z]+)?)",
    @"([A-Z][a-z]+\s+[A-Z][a-z]+)(?:\s+and\s+([A-Z][a-z]+\s+[A-Z][a-z]+))?"
  ]

  /** Question words that select the focus rules, and the author rules. */
  const FocusWords: seq<string> := ["focus", "subject", "about"]
  const AuthorWords: seq<string> := ["author", "who"]

  /** A focus answer must contain one of these, case-insensitively. */
  const RelevanceWords: seq<string> := ["startup", "business", "company", "tips", "guide"]

  const MinAnswerLength: nat := 10
  const FocusChunkLimit: nat := 3
  const AuthorChunkLimit: nat := 2

  predicate AsksFocus(question: string) {
    ContainsAny(Lower(question), FocusWords)
  }

  predicate AsksAuthor(question: string) {
    ContainsAny(Lower(question), AuthorWords)
  }

  /** `answer.replace('  ', ' ')` followed by upper-casing the first letter. */
  function Polish(a: string): (r: string)
    requires |a| > 0
    ensures 0 < |r| <= |a|
    ensures !('a' <= r[0] <= 'z')
    ensures NoOuterSpace(a) ==> NoOuterSpace(r)
  {
    var t := ReplaceDoubleSpace(a);
    [UpperChar(t[0])] + t[1..]
  }

  /** Capitalising the first letter is invisible to a case-insensitive
      test: the relevance check sees the text with double spaces halved. */
  lemma PolishLower(a: string)
    requires |a| > 0
    ensures Lower(Polish(a)) == Lower(ReplaceDoubleSpace(a))
  {
    LowerCapitalised(ReplaceDoubleSpace(a));
  }

  lemma LowerCapitalised(t: string)
    requires |t| > 0
    ensures Lower([UpperChar(t[0])] + t[1..]) == Lower(t)
  {
    var r := [UpperChar(t[0])] + t[1..];
    forall i | 0 <= i < |r|
      ensures Lower(r)[i] == Lower(t)[i]
    {
      if i == 0 {
        LowerUpper(t[0]);
      } else {
        assert r[i] == t[i];
      }
    }
  }

  lemma LowerUpper(c: char)
    ensures LowerChar(UpperChar(c)) == LowerChar(c)
  {
  }

  /** Text without double spaces is polished by capitalising its first
      letter only. */
  lemma PolishClean(a: string)
    requires |a| > 0 && NoDoubleSpace(a)
    ensures Polish(a) == [UpperChar(a[0])] + a[1..]
  {
    ReplaceDoubleSpaceClean(a);
  }

  /** The guards a matched group has to pass: at least ten characters once
      stripped, and a relevance word in the polished form. */
  function Accept(group: string): (r: Option<string>)
    ensures r.Some? <==>
              && |Strip(group)| >= MinAnswerLength
              && ContainsAny(Lower(Polish(Strip(group))), RelevanceWords)
    ensures r.Some? ==> r.value == Polish(Strip(group))
    ensures r.Some? ==> 0 < |r.value| && NoOuterSpace(r.value) && !('a' <= r.value[0] <= 'z')
  {
    var a := Strip(group);
    if |a| >= MinAnswerLength then
      var p := Polish(a);
      if ContainsAny(Lower(p), RelevanceWords) then Some(p) else None
    else None
  }

  /** What one rule yields on one cleaned chunk: a found answer carries the
      rule's confidence, comes from a group that matched and is long enough,
      is trimmed, capitalised and mentions a relevance word; a match that
      passes both guards always yields one. */
  function Candidate(search: Search, clean: string, rule: Rule): (r: Option<Found>)
    ensures search(rule.pattern, clean, true).None? ==> r.None?
    ensures r.Some? ==>
              && r.value.score == rule.confidence
              && 0 < |r.value.answer| && NoOuterSpace(r.value.answer)
              && !('a' <= r.value.answer[0] <= 'z')
              && ContainsAny(Lower(r.value.answer), RelevanceWords)
              && exists g :: search(rule.pattern, clean, true) == Some(g) && |Strip(g)| >= MinAnswerLength
    ensures forall g ::
              && search(rule.pattern, clean, true) == Some(g)
              && |Strip(g)| >= MinAnswerLength
              && ContainsAny(Lower(Polish(Strip(g))), RelevanceWords)
              ==> r.Some?
  {
    match search(rule.pattern, clean, true)
    case None => None
    case Some(g) =>
      match Accept(g)
      case None => None
      case Some(a) => Some(Found(a, rule.confidence))
  }

  /** The inner loop: the rules in order on one cleaned chunk. */
  function ScanRules(search: Search, clean: string, rules: seq<Rule>): Option<Found>
  {
    if |rules| == 0 then None
    else
      match Candidate(search, clean, rules[0])
      case Some(f) => Some(f)
      case None => ScanRules(search, clean, rules[1..])
  }

  /** The outer loop: the chunks in order, each cleaned first. */
  function ScanChunks(search: Search, chunks: seq<string>, rules: seq<Rule>): Option<Found>
  {
    if |chunks| == 0 then None
    else
      match ScanRules(search, Ranking.Preprocess(chunks[0]), rules)
      case Some(f) => Some(f)
      case None => ScanChunks(search, chunks[1..], rules)
  }

  /** `extract_fallback_answer`: dispatch on the question's intent, then
      the first acceptable rule match wins. */
  function ExtractFallbackAnswer(search: Search, question: string, chunks: seq<string>)
    : (r: Outcome<Option<Found>>)
    ensures !AsksFocus(question) && !AsksAuthor(question) ==> r == Return(None)
    ensures r.Return? && r.value.Some? ==>
              AsksFocus(question) && (r.value.value.score == TitleScore || exists k :: 0 <= k < |FocusRules| && r.value.value.score == FocusRules[k].confidence)
    ensures r == Raise(TypeError) ==> !AsksFocus(question) && AsksAuthor(question)
    ensures r == Raise(IndexError) ==> AsksFocus(question) && |chunks| == 0
    ensures !AsksFocus(question) && AsksAuthor(question) ==>
              && (r.Raise? <==> AuthorMatch(search, Take(chunks, AuthorChunkLimit)))
              && (r.Return? ==> r.value == None)
  {
    if AsksFocus(question) then
      FocusScores(search, Take(chunks, FocusChunkLimit), FocusRules);
      match ScanChunks(search, Take(chunks, FocusChunkLimit), FocusRules)
      case Some(f) => Return(Some(f))
      case None =>
        if |chunks| == 0 then Raise(IndexError)
        else
          match search(TitlePattern, chunks[0], false)
          case Some(g) => Return(Some(Found(Strip(g), TitleScore)))
          case None => Return(None)
    else if AsksAuthor(question) then
      ScanAuthorsRaisesIffMatch(search, Take(chunks, AuthorChunkLimit));
      ScanAuthors(search, Take(chunks, AuthorChunkLimit))
    else Return(None)
  }

  /** Some author pattern matches some of the given chunks. */
  predicate AuthorMatch(search: Search, chunks: seq<string>) {
    exists i, k | 0 <= i < |chunks| && 0 <= k < |AuthorPatterns| :: search(AuthorPatterns[k], chunks[i], false).Some?
  }

  /** The inner author loop on one raw chunk. Neither pattern names its
      groups, so `match.lastgroup` is `None` and the first match raises at
      `match.lastgroup > 1`. */
  function ScanAuthorPatterns(search: Search, chunk: string, patterns: seq<string>): Outcome<Option<Found>>
  {
    if |patterns| == 0 then Return(None)
    else if search(patterns[0], chunk, false).Some? then Raise(TypeError)
    else ScanAuthorPatterns(search, chunk, patterns[1..])
  }

  /** The outer author loop over the raw chunks. */
  function ScanAuthors(search: Search, chunks: seq<string>): Outcome<Option<Found>>
  {
    if |chunks| == 0 then Return(None)
    else
      match ScanAuthorPatterns(search, chunks[0], AuthorPatterns)
      case Raise(e) => Raise(e)
      case Return(_) => ScanAuthors(search, chunks[1..])
  }

  /** The author loops raise exactly when some author pattern matches some
      chunk, and otherwise fall through to `None`. */
  lemma {:induction false} ScanAuthorsRaisesIffMatch(search: Search, chunks: seq<string>)
    ensures ScanAuthors(search, chunks) == if AuthorMatch(search, chunks) then Raise(TypeError) else Return(None)
  {
    if |chunks| > 0 {
      ScanAuthorsRaisesIffMatch(search, chunks[1..]);
      AuthorPatternsRaiseIffMatch(search, chunks[0], AuthorPatterns);
      if AuthorMatch(search, chunks[1..]) {
        var i, k :| 0 <= i < |chunks| - 1 && 0 <= k < |AuthorPatterns| && search(AuthorPatterns[k], chunks[1..][i], false).Some?;
        assert search(AuthorPatterns[k], chunks[i + 1], false).Some?;
      }
      if AuthorMatch(search, chunks) {
        var i, k :| 0 <= i < |chunks| && 0 <= k < |AuthorPatterns| && search(AuthorPatterns[k], chunks[i], false).Some?;
        if i > 0 {
          assert chunks[1..][i - 1] == chunks[i];
        }
      }
    }
  }

  lemma {:induction false} AuthorPatternsRaiseIffMatch(search: Search, chunk: string, patterns: seq<string>)
    ensures ScanAuthorPatterns(search, chunk, patterns)
            == if exists k :: 0 <= k < |patterns| && search(patterns[k], chunk, false).Some?
               then Raise(TypeError) else Return(None)
  {
    if |patterns| > 0 {
      AuthorPatternsRaiseIffMatch(search, chunk, patterns[1..]);
      if exists k :: 0 <= k < |patterns| - 1 && search(patterns[1..][k], chunk, false).Some? {
        var k :| 0 <= k < |patterns| - 1 && search(patterns[1..][k], chunk, false).Some?;
        assert search(patterns[k + 1], chunk, false).Some?;
      }
      if exists k :: 0 <= k < |patterns| && search(patterns[k], chunk, false).Some? {
        var k :| 0 <= k < |patterns| && search(patterns[k], chunk, false).Some?;
        if k > 0 {
          assert patterns[1..][k - 1] == patterns[k];
        }
      }
    }
  }

  lemma {:induction false} FocusScores(search: Search, chunks: seq<string>, rules: seq<Rule>)
    ensures var r := ScanChunks(search, chunks, rules);
            r.Some? ==> exists k :: 0 <= k < |rules| && r.value.score == rules[k].confidence
  {
    if |chunks| > 0 {
      FocusScores(search, chunks[1..], rules);
      RuleScores(search, Ranking.Preprocess(chunks[0]), rules);
    }
  }

  lemma {:induction false} RuleScores(search: Search, clean: string, rules: seq<Rule>)
    ensures var r := ScanRules(search, clean, rules);
            r.Some? ==> exists k :: 0 <= k < |rules| && r.value.score == rules[k].confidence
  {
    if |rules| > 0 && Candidate(search, clean, rules[0]).None? {
      RuleScores(search, clean, rules[1..]);
      var r := ScanRules(search, clean, rules);
      if r.Some? {
        var k :| 0 <= k < |rules| - 1 && r.value.score == rules[1..][k].confidence;
        assert r.value.score == rules[k + 1].confidence;
      }
    }
  }

  // ---------------------------------------------------------------------
  // The nested scan as a search for the first acceptable candidate.

  /** The candidate of every rule on one cleaned chunk, in rule order. */
  function RuleCandidates(search: Search, clean: string, rules: seq<Rule>): (r: seq<Option<Found>>)
    ensures |r| == |rules|
    ensures forall j :: 0 <= j < |rules| ==> r[j] == Candidate(search, clean, rules[j])
  {
    if |rules| == 0 then []
    else [Candidate(search, clean, rules[0])] + RuleCandidates(search, clean, rules[1..])
  }

  /** Every (chunk, rule) pair, chunk by chunk and rule by rule. */
  function Candidates(search: Search, chunks: seq<string>, rules: seq<Rule>): seq<Option<Found>>
  {
    if |chunks| == 0 then []
    else RuleCandidates(search, Ranking.Preprocess(chunks[0]), rules) + Candidates(search, chunks[1..], rules)
  }

  /** The first present value of a list, if any. */
  function FirstSome(s: seq<Option<Found>>): (r: Option<Found>)
    ensures r.None? <==> forall k :: 0 <= k < |s| ==> s[k].None?
    ensures r.Some? ==> exists k :: 0 <= k < |s| && s[k] == r && forall j :: 0 <= j < k ==> s[j].None?
  {
    if |s| == 0 then None
    else if s[0].Some? then s[0]
    else
      var r := FirstSome(s[1..]);
      assert r.Some? ==> exists k :: 0 <= k < |s| && s[k] == r && forall j :: 0 <= j < k ==> s[j].None? by {
        if r.Some? {
          var k :| 0 <= k < |s| - 1 && s[1..][k] == r && forall j :: 0 <= j < k ==> s[1..][j].None?;
          assert s[k + 1] == r;
          assert forall j :: 0 <= j < k + 1 ==> s[j].None? by {
            forall j | 0 <= j < k + 1
              ensures s[j].None?
            {
              if j > 0 {
                assert s[j] == s[1..][j - 1];
              }
            }
          }
        }
      }
      r
  }

  lemma {:induction false} FirstSomeAppend(a: seq<Option<Found>>, b: seq<Option<Found>>)
    ensures FirstSome(a + b) == if FirstSome(a).Some? then FirstSome(a) else FirstSome(b)
  {
    if |a| > 0 {
      assert (a + b)[1..] == a[1..] + b;
      FirstSomeAppend(a[1..], b);
    } else {
      assert a + b == b;
    }
  }

  lemma {:induction false} ScanRulesIsFirst(search: Search, clean: string, rules: seq<Rule>)
    ensures ScanRules(search, clean, rules) == FirstSome(RuleCandidates(search, clean, rules))
  {
    if |rules| > 0 {
      ScanRulesIsFirst(search, clean, rules[1..]);
      assert RuleCandidates(search, clean, rules)[1..] == RuleCandidates(search, clean, rules[1..]);
    }
  }

  /** The nested loops return the first acceptable candidate in chunk-major
      order: no earlier (chunk, rule) pair passed the guards. */
  lemma {:induction false} ScanIsFirstAcceptable(search: Search, chunks: seq<string>, rules: seq<Rule>)
    ensures ScanChunks(search, chunks, rules) == FirstSome(Candidates(search, chunks, rules))
  {
    if |chunks| > 0 {
      var clean := Ranking.Preprocess(chunks[0]);
      ScanIsFirstAcceptable(search, chunks[1..], rules);
      ScanRulesIsFirst(search, clean, rules);
      FirstSomeAppend(RuleCandidates(search, clean, rules), Candidates(search, chunks[1..], rules));
    }
  }

  /** The focus branch: the first acceptable (chunk, rule) candidate among
      the first three chunks; failing that the title pattern on the raw
      first chunk, which raises on an empty list. */
  lemma FocusBranch(search: Search, question: string, chunks: seq<string>)
    requires AsksFocus(question)
    ensures var first := FirstSome(Candidates(search, Take(chunks, FocusChunkLimit), FocusRules));
            var r := ExtractFallbackAnswer(search, question, chunks);
            && (first.Some? ==> r == Return(first))
            && (first.None? && |chunks| == 0 ==> r == Raise(IndexError))
            && (first.None? && |chunks| > 0 ==>
                  r == Return(if search(TitlePattern, chunks[0], false).Some?
                              then Some(Found(Strip(search(TitlePattern, chunks[0], false).value), TitleScore))
                              else None))
  {
    ScanIsFirstAcceptable(search, Take(chunks, FocusChunkLimit), FocusRules);
  }

  /** Only the first three chunks are ever read. */
  lemma OnlyLeadingChunksRead(search: Search, question: string, chunks: seq<string>)
    ensures ExtractFallbackAnswer(search, question, chunks)
            == ExtractFallbackAnswer(search, question, Take(chunks, FocusChunkLimit))
  {
    var p := Take(chunks, FocusChunkLimit);
    assert Take(p, FocusChunkLimit) == p;
    assert Take(p, AuthorChunkLimit) == Take(chunks, AuthorChunkLimit);
    if |chunks| > 0 {
      assert p[0] == chunks[0];
    }
  }
}

=== FILE: ranking.dfy ===
/** The relevance ranker of the extractive answerer: chunk cleaning, the
    keyword boost over given similarity scores, and top-k selection. */
module Ranking {
  import opened Text

  // ---------------------------------------------------------------------
  // `preprocess_chunk`

  /** Python's `re.sub(r'\s+', ' ', s)`: every whitespace run becomes one space. */
  function CollapseSpace(s: string): (r: string)
    ensures |r| <= |s|
    decreases |s|
  {
    if |s| == 0 then []
    else if IsSpace(s[0]) then [' '] + CollapseSpace(s[LeadingSpace(s)..])
    else [s[0]] + CollapseSpace(s[1..])
  }

  /** The only whitespace left is single spaces, and a leading space comes
      from leading whitespace. */
  lemma {:induction false} CollapseSpaceSingles(s: string)
    ensures var r := CollapseSpace(s);
            && (forall i :: 0 <= i < |r| && IsSpace(r[i]) ==> r[i] == ' ')
            && (forall i :: 0 < i < |r| && r[i - 1] == ' ' ==> r[i] != ' ')
            && (|r| > 0 && r[0] == ' ' ==> |s| > 0 && IsSpace(s[0]))
    decreases |s|
  {
    if |s| > 0 {
      var r := CollapseSpace(s);
      var a := if IsSpace(s[0]) then LeadingSpace(s) else 1;
      var rest := CollapseSpace(s[a..]);
      CollapseSpaceSingles(s[a..]);
      assert r == [if IsSpace(s[0]) then ' ' else s[0]] + rest;
      assert IsSpace(s[0]) && |rest| > 0 ==> rest[0] != ' ' by {
        if IsSpace(s[0]) && |rest| > 0 {
          assert !IsSpace(s[a..][0]);
        }
      }
      forall i | 0 < i < |r|
        ensures IsSpace(r[i]) ==> r[i] == ' '
        ensures r[i - 1] == ' ' ==> r[i] != ' '
      {
        assert r[i] == rest[i - 1];
        if i > 1 {
          assert r[i - 1] == rest[i - 2];
        }
      }
    }
  }

  /** Collapsing leaves the non-whitespace characters untouched. */
  lemma {:induction false} CollapseSpaceNonSpace(s: string)
    ensures NonSpace(CollapseSpace(s)) == NonSpace(s)
    decreases |s|
  {
    if |s| > 0 {
      var r := CollapseSpace(s);
      if IsSpace(s[0]) {
        var a := LeadingSpace(s);
        CollapseSpaceNonSpace(s[a..]);
        assert NonSpace(r) == NonSpace(CollapseSpace(s[a..]));
        NonSpaceAllSpace(s[..a]);
        NonSpaceAppend(s[..a], s[a..]);
        assert s == s[..a] + s[a..];
      } else {
        CollapseSpaceNonSpace(s[1..]);
        assert NonSpace(s) == [s[0]] + NonSpace(s[1..]);
        assert NonSpace(r) == [s[0]] + NonSpace(CollapseSpace(s[1..]));
      }
    }
  }

  /** The single space a collapsed string starts with, if any. */
  function Lead(s: string): string {
    if |s| > 0 && IsSpace(s[0]) then " " else ""
  }

  /** The single space a collapsed string ends with, if any: trailing
      whitespace after at least one word. */
  function Trail(s: string): string {
    if |Words(s)| > 0 && IsSpace(s[|s| - 1]) then " " else ""
  }

  /** Collapsing whitespace runs gives the words joined by single spaces,
      with one space in front for leading whitespace and one behind for
      trailing whitespace. */
  lemma {:induction false} CollapseSpaceShape(s: string)
    ensures CollapseSpace(s) == Lead(s) + Join(" ", Words(s)) + Trail(s)
    decreases |s|
  {
    if |s| == 0 {
    } else if IsSpace(s[0]) {
      var a := LeadingSpace(s);
      CollapseSpaceShape(s[a..]);
      CollapseShapeSpaceHead(s);
    } else {
      var n := WordLength(s);
      if n < |s| {
        CollapseSpaceShape(s[n..]);
      }
      CollapseShapeWordHead(s);
    }
  }

  /** The step of `CollapseSpaceShape` past a leading whitespace run. */
  lemma CollapseShapeSpaceHead(s: string)
    requires |s| > 0 && IsSpace(s[0])
    requires var t := s[LeadingSpace(s)..];
             CollapseSpace(t) == Lead(t) + Join(" ", Words(t)) + Trail(t)
    ensures CollapseSpace(s) == Lead(s) + Join(" ", Words(s)) + Trail(s)
  {
    var t := s[LeadingSpace(s)..];
    SpaceHeadParts(s);
    if |t| == 0 {
      assert CollapseSpace(t) == [];
    } else {
      SpaceRegroup(Join(" ", Words(t)), Trail(t));
    }
  }

  /** What a leading whitespace run contributes, and what it leaves to the
      rest of the string. */
  lemma SpaceHeadParts(s: string)
    requires |s| > 0 && IsSpace(s[0])
    ensures var t := s[LeadingSpace(s)..];
            && CollapseSpace(s) == " " + CollapseSpace(t)
            && Words(s) == Words(t)
            && Lead(s) == " "
            && (|t| == 0 ==> Trail(s) == "" && Join(" ", Words(s)) == [])
            && (|t| > 0 ==> Lead(t) == "" && Trail(t) == Trail(s))
  {
    var a := LeadingSpace(s);
    var t := s[a..];
    WordsSkipSpace(s, a);
    if |t| > 0 {
      assert t[0] == s[a];
      assert t[|t| - 1] == s[|s| - 1];
    }
  }

  /** The step of `CollapseSpaceShape` past a leading word. */
  lemma CollapseShapeWordHead(s: string)
    requires |s| > 0 && !IsSpace(s[0])
    requires var t := s[WordLength(s)..];
             |t| > 0 ==> CollapseSpace(t) == Lead(t) + Join(" ", Words(t)) + Trail(t)
    ensures CollapseSpace(s) == Lead(s) + Join(" ", Words(s)) + Trail(s)
  {
    var n := WordLength(s);
    var w := s[..n];
    var t := s[n..];
    WordHeadParts(s);
    if |t| == 0 {
      assert CollapseSpace(t) == [];
      WordAloneShape(w);
    } else if |Words(t)| == 0 {
      assert CollapseSpace(t) == " " + [] + "";
      WordSpaceShape(w);
    } else {
      WordRestShape(w, Join(" ", Words(t)), Trail(t));
    }
  }

  /** What a leading word contributes, and what it leaves to the rest of
      the string. */
  lemma WordHeadParts(s: string)
    requires |s| > 0 && !IsSpace(s[0])
    ensures var n := WordLength(s);
            var w := s[..n];
            var t := s[n..];
            && CollapseSpace(s) == w + CollapseSpace(t)
            && Lead(s) == ""
            && (|t| == 0 ==> w == s && Join(" ", Words(s)) == w && Trail(s) == "")
            && (|t| > 0 ==> Lead(t) == " ")
            && (|t| > 0 && |Words(t)| == 0 ==> Join(" ", Words(s)) == w && Trail(s) == " " && Trail(t) == "")
            && (|t| > 0 && |Words(t)| > 0 ==>
                  Join(" ", Words(s)) == w + " " + Join(" ", Words(t)) && Trail(s) == Trail(t))
  {
    var n := WordLength(s);
    var w := s[..n];
    var t := s[n..];
    assert CollapseSpace(s) == w + CollapseSpace(t) by {
      assert s == w + t;
      CollapseSpaceWordPrefix(w, t);
    }
    if |t| == 0 {
      WordHeadAlone(s);
    } else if |Words(t)| == 0 {
      WordHeadThenSpace(s);
    } else {
      WordHeadThenWords(s);
    }
  }

  lemma WordHeadAlone(s: string)
    requires |s| > 0 && !IsSpace(s[0])
    requires WordLength(s) == |s|
    ensures s[..WordLength(s)] == s && Join(" ", Words(s)) == s && Trail(s) == ""
  {
    WordsCons(s);
    assert s[..|s|] == s && s[|s|..] == [];
    WordJoinAlone(s, Words(s));
  }

  lemma WordHeadThenSpace(s: string)
    requires |s| > 0 && !IsSpace(s[0])
    requires WordLength(s) < |s| && |Words(s[WordLength(s)..])| == 0
    ensures Join(" ", Words(s)) == s[..WordLength(s)] && Trail(s) == " "
    ensures Trail(s[WordLength(s)..]) == ""
  {
    var n := WordLength(s);
    var t := s[n..];
    WordsCons(s);
    WordJoinAlone(s[..n], Words(s));
    NoWordsAllSpace(t);
    assert t[|t| - 1] == s[|s| - 1];
  }

  lemma WordHeadThenWords(s: string)
    requires |s| > 0 && !IsSpace(s[0])
    requires WordLength(s) < |s| && |Words(s[WordLength(s)..])| > 0
    ensures var t := s[WordLength(s)..];
            Join(" ", Words(s)) == s[..WordLength(s)] + " " + Join(" ", Words(t)) && Trail(s) == Trail(t)
  {
    var n := WordLength(s);
    var t := s[n..];
    WordsCons(s);
    WordJoinCons(s[..n], Words(t), Words(s));
    assert t[|t| - 1] == s[|s| - 1];
  }

  /** Concatenation regroupings in the exact shape the shape lemmas need;
      kept apart so that the solver proves them without the recursive
      definitions in scope. */
  lemma SpaceRegroup(j: string, tr: string)
    ensures " " + ("" + j + tr) == " " + j + tr
  {
  }

  lemma WordAloneShape(w: string)
    ensures w + [] == "" + w + ""
  {
  }

  lemma WordSpaceShape(w: string)
    ensures w + (" " + [] + "") == "" + w + " "
  {
  }

  lemma WordRestShape(w: string, j: string, tr: string)
    ensures w + (" " + j + tr) == "" + (w + " " + j) + tr
  {
  }

  lemma WordJoinAlone(w: string, ws: seq<string>)
    requires ws == [w] + []
    ensures Join(" ", ws) == w
  {
  }

  lemma WordJoinCons(w: string, rest: seq<string>, ws: seq<string>)
    requires |rest| > 0
    requires ws == [w] + rest
    ensures Join(" ", ws) == w + " " + Join(" ", rest)
  {
    assert ws[1..] == rest;
  }

  /** Collapsing passes a whitespace-free prefix through unchanged. */
  lemma {:induction false} CollapseSpaceWordPrefix(w: string, x: string)
    requires forall i :: 0 <= i < |w| ==> !IsSpace(w[i])
    ensures CollapseSpace(w + x) == w + CollapseSpace(x)
  {
    if |w| == 0 {
      assert w + x == x;
    } else {
      assert (w + x)[0] == w[0];
      assert (w + x)[1..] == w[1..] + x;
      assert CollapseSpace(w + x) == [w[0]] + CollapseSpace(w[1..] + x);
      CollapseSpaceWordPrefix(w[1..], x);
      assert w + CollapseSpace(x) == [w[0]] + (w[1..] + CollapseSpace(x)) by {
        assert w == [w[0]] + w[1..];
      }
    }
  }

  /** Collapsing then stripping is `" ".join(s.split())`. */
  lemma CollapseSpaceJoinsWords(s: string)
    ensures Strip(CollapseSpace(s)) == Join(" ", Words(s))
  {
    CollapseSpaceShape(s);
    WordsAreWords(s);
    JoinWordsNoOuterSpace(Words(s));
    StripAround(Lead(s), Join(" ", Words(s)), Trail(s));
  }

  /** The characters of `s` that are not whitespace, in order. */
  function NonSpace(s: string): (r: string)
    ensures |r| <= |s|
  {
    if |s| == 0 then []
    else if IsSpace(s[0]) then NonSpace(s[1..])
    else [s[0]] + NonSpace(s[1..])
  }

  /** The characters `preprocess_chunk` keeps: `[a-zA-Z0-9\s.,!?-]`. */
  predicate IsKept(c: char) {
    || ('a' <= c <= 'z') || ('A' <= c <= 'Z') || ('0' <= c <= '9')
    || IsSpace(c)
    || c == '.' || c == ',' || c == '!' || c == '?' || c == '-'
  }

  /** The alphabet of a cleaned chunk. */
  predicate IsCleanChar(c: char) {
    IsKept(c) && (IsSpace(c) ==> c == ' ')
  }

  /** Python's `re.sub(r'[^a-zA-Z0-9\s.,!?-]', '', s)`. */
  function KeepAllowed(s: string): (r: string)
    ensures |r| <= |s|
    ensures forall i :: 0 <= i < |r| ==> IsKept(r[i])
    ensures forall i :: 0 <= i < |r| ==> r[i] in s
  {
    if |s| == 0 then []
    else if IsKept(s[0]) then [s[0]] + KeepAllowed(s[1..])
    else KeepAllowed(s[1..])
  }

  /** Filtering distributes over concatenation. */
  lemma {:induction false} KeepAllowedAppend(a: string, b: string)
    ensures KeepAllowed(a + b) == KeepAllowed(a) + KeepAllowed(b)
  {
    if |a| > 0 {
      assert (a + b)[0] == a[0];
      assert (a + b)[1..] == a[1..] + b;
      KeepAllowedAppend(a[1..], b);
    } else {
      assert a + b == b;
    }
  }

  /** A string of allowed characters is kept whole. */
  lemma {:induction false} KeepAllowedKeepsAllowed(s: string)
    requires forall i :: 0 <= i < |s| ==> IsKept(s[i])
    ensures KeepAllowed(s) == s
  {
    if |s| > 0 {
      KeepAllowedKeepsAllowed(s[1..]);
    }
  }

  /** A string of disallowed characters is deleted entirely. */
  lemma {:induction false} KeepAllowedDropsRest(s: string)
    requires forall i :: 0 <= i < |s| ==> !IsKept(s[i])
    ensures KeepAllowed(s) == []
  {
    if |s| > 0 {
      KeepAllowedDropsRest(s[1..]);
    }
  }

  lemma {:induction false} NonSpaceAppend(a: string, b: string)
    ensures NonSpace(a + b) == NonSpace(a) + NonSpace(b)
  {
    if |a| > 0 {
      assert (a + b)[1..] == a[1..] + b;
      NonSpaceAppend(a[1..], b);
    } else {
      assert a + b == b;
    }
  }

  lemma {:induction false} NonSpaceAllSpace(s: string)
    requires AllSpace(s)
    ensures NonSpace(s) == []
  {
    if |s| > 0 {
      NonSpaceAllSpace(s[1..]);
    }
  }

  /** Stripping removes whitespace only. */
  lemma NonSpaceStrip(s: string)
    ensures NonSpace(Strip(s)) == NonSpace(s)
  {
    var a := LeadingSpace(s);
    var r := Strip(s);
    assert StrippedAt(r, s, a);
    assert s == s[..a] + r + s[a + |r|..];
    NonSpaceAppend(s[..a] + r, s[a + |r|..]);
    NonSpaceAppend(s[..a], r);
    NonSpaceAllSpace(s[..a]);
    NonSpaceAllSpace(s[a + |r|..]);
  }

  /** Dropping whitespace and dropping disallowed characters commute. */
  lemma {:induction false} NonSpaceKeepAllowed(s: string)
    ensures NonSpace(KeepAllowed(s)) == KeepAllowed(NonSpace(s))
  {
    if |s| > 0 {
      NonSpaceKeepAllowed(s[1..]);
    }
  }

  /** `preprocess_chunk`: collapse whitespace runs, strip, then delete every
      character outside `[a-zA-Z0-9\s.,!?-]`. */
  function Preprocess(s: string): (r: string)
    ensures |r| <= |s|
    ensures forall i :: 0 <= i < |r| ==> IsCleanChar(r[i])
    ensures NonSpace(r) == KeepAllowed(NonSpace(s))
  {
    var collapsed := CollapseSpace(s);
    var stripped := Strip(collapsed);
    var r := KeepAllowed(stripped);
    CollapseSpaceSingles(s);
    CollapseSpaceNonSpace(s);
    assert forall i :: 0 <= i < |r| ==> IsCleanChar(r[i]) by {
      StripKeepsSingleSpaces(collapsed);
    }
    assert NonSpace(r) == KeepAllowed(NonSpace(s)) by {
      NonSpaceStrip(collapsed);
      NonSpaceKeepAllowed(stripped);
    }
    r
  }

  /** A cleaned chunk is its words joined by single spaces with every
      character outside the allowed set deleted. */
  lemma PreprocessJoinsWords(s: string)
    ensures Preprocess(s) == KeepAllowed(Join(" ", Words(s)))
  {
    CollapseSpaceJoinsWords(s);
  }

  /** Stripping a collapsed string leaves no whitespace other than ' '. */
  lemma StripKeepsSingleSpaces(collapsed: string)
    requires forall i :: 0 <= i < |collapsed| && IsSpace(collapsed[i]) ==> collapsed[i] == ' '
    ensures forall i :: 0 <= i < |Strip(collapsed)| && IsSpace(Strip(collapsed)[i]) ==> Strip(collapsed)[i] == ' '
  {
    var stripped := Strip(collapsed);
    assert StrippedAt(stripped, collapsed, LeadingSpace(collapsed));
    assert forall i :: 0 <= i < |stripped| ==> stripped[i] == collapsed[LeadingSpace(collapsed) + i];
  }

  /** Cleaning is not idempotent: deleting a character next to a space can
      leave a leading space that a second pass strips. */
  lemma PreprocessNotIdempotent()
    ensures Preprocess("# a") == " a"
    ensures Preprocess(Preprocess("# a")) == "a"
  {
    CleanHashSpaceA();
    CleanSpaceA();
  }

  lemma CleanHashSpaceA()
    ensures Preprocess("# a") == " a"
  {
    CollapseHashSpaceA();
    StripHashSpaceA();
    KeepHashSpaceA();
  }

  lemma StripHashSpaceA()
    ensures Strip("# a") == "# a"
  {
    assert LeadingSpace("# a") == 0;
    assert TrailingCut("# a", 0) == 3;
  }

  lemma KeepHashSpaceA()
    ensures KeepAllowed("# a") == " a"
  {
    var s := "# a";
    assert s[1..] == " a" && " a"[1..] == "a";
    assert KeepAllowed("a") == "a";
    assert KeepAllowed(" a") == " a";
  }

  lemma CollapseHashSpaceA()
    ensures CollapseSpace("# a") == "# a"
  {
    var s := "# a";
    assert s[1..] == " a" && " a"[1..] == "a";
    assert LeadingSpace(" a") == 1;
    assert CollapseSpace("a") == "a";
    assert CollapseSpace(" a") == " a";
  }

  lemma CleanSpaceA()
    ensures Preprocess(" a") == "a"
  {
    var s := " a";
    assert s[1..] == "a";
    assert LeadingSpace(s) == 1;
    assert CollapseSpace("a") == "a";
    assert CollapseSpace(s) == s;
    assert TrailingCut(s, 1) == 2;
    assert Strip(s) == "a";
    assert KeepAllowed("a") == "a";
  }

  // ---------------------------------------------------------------------
  // `find_relevant_chunks`

  /** The question's keywords: its distinct lower-cased words longer than
      three characters. */
  function Keywords(question: string): (ks: set<string>)
    ensures forall w :: w in ks ==> |w| > 3
  {
    set w | w in Words(question) && |w| > 3 :: Lower(w)
  }

  /** How many keywords occur in the lower-cased chunk. */
  function KeywordMatches(keywords: set<string>, chunk: string): (n: nat)
    ensures n <= |keywords|
  {
    var lowered := Lower(chunk);
    var matched := set w | w in keywords && Contains(lowered, w);
    assert matched <= keywords;
    SubsetCardinality(matched, keywords);
    |matched|
  }

  lemma SubsetCardinality<T>(a: set<T>, b: set<T>)
    requires a <= b
    ensures |a| <= |b|
  {
    assert b == a + (b - a);
  }

  /** The 20% boost per matched keyword. */
  function Boost(score: real, matches: nat): real {
    score * (1.0 + 0.2 * matches as real)
  }

  /** The boosted score of every chunk, in chunk order. */
  function BoostedScores(question: string, scores: seq<real>, chunks: seq<string>): (b: seq<real>)
    requires |scores| == |chunks|
    ensures |b| == |chunks|
    ensures forall i :: 0 <= i < |b| ==>
              b[i] == Boost(scores[i], KeywordMatches(Keywords(question), chunks[i]))
  {
    var ks := Keywords(question);
    seq(|chunks|, i requires 0 <= i < |chunks| => Boost(scores[i], KeywordMatches(ks, chunks[i])))
  }

  /** A question without keywords leaves every score as it is. */
  lemma NoKeywordsNoBoost(question: string, scores: seq<real>, chunks: seq<string>)
    requires |scores| == |chunks|
    requires Keywords(question) == {}
    ensures BoostedScores(question, scores, chunks) == scores
  {
    var b := BoostedScores(question, scores, chunks);
    forall i | 0 <= i < |b|
      ensures b[i] == scores[i]
    {
      assert KeywordMatches(Keywords(question), chunks[i]) == 0;
    }
  }

  /** Of two chunks, one whose base score is at least the other's, not
      negative, and that contains every keyword the other contains, ends up
      with a boosted score at least as high. */
  lemma MoreKeywordsRankHigher(question: string, scores: seq<real>, chunks: seq<string>, i: nat, j: nat)
    requires |scores| == |chunks|
    requires i < |chunks| && j < |chunks|
    requires 0.0 <= scores[j] <= scores[i]
    requires forall w :: w in Keywords(question) && Contains(Lower(chunks[j]), w) ==> Contains(Lower(chunks[i]), w)
    ensures BoostedScores(question, scores, chunks)[i] >= BoostedScores(question, scores, chunks)[j]
  {
    var ks := Keywords(question);
    MatchesSubset(ks, chunks[i], chunks[j]);
    var mi := KeywordMatches(ks, chunks[i]);
    var mj := KeywordMatches(ks, chunks[j]);
    BoostMonotone(scores[j], mj, mi);
    BoostGrowsWithScore(scores[j], scores[i], mi);
  }

  /** A chunk containing every keyword another contains matches at least
      as many. */
  lemma MatchesSubset(ks: set<string>, c1: string, c2: string)
    requires forall w :: w in ks && Contains(Lower(c2), w) ==> Contains(Lower(c1), w)
    ensures KeywordMatches(ks, c2) <= KeywordMatches(ks, c1)
  {
    var m1 := set w | w in ks && Contains(Lower(c1), w);
    var m2 := set w | w in ks && Contains(Lower(c2), w);
    SubsetCardinality(m2, m1);
  }

  /** For a fixed number of matches the boost keeps the order of scores. */
  lemma BoostGrowsWithScore(x: real, y: real, m: nat)
    requires x <= y
    ensures Boost(x, m) <= Boost(y, m)
  {
    var f := 1.0 + 0.2 * m as real;
    assert (y - x) * f >= 0.0;
  }

  /** A chunk with more matches never scores lower, when its base score is
      not negative. */
  lemma BoostMonotone(score: real, m1: nat, m2: nat)
    requires 0.0 <= score
    requires m1 <= m2
    ensures Boost(score, m1) <= Boost(score, m2)
  {
    assert score * (0.2 * m1 as real) <= score * (0.2 * m2 as real);
  }

  /** A negative similarity is pushed further down by every extra match. */
  lemma BoostPenalisesNegative(score: real, m1: nat, m2: nat)
    requires score < 0.0
    requires m1 < m2
    ensures Boost(score, m2) < Boost(score, m1)
  {
    assert score * (0.2 * m2 as real) < score * (0.2 * m1 as real);
  }

  /** How many indices `np.argsort(scores)[-top_k:]` keeps out of `n`: a
      positive `top_k` keeps up to that many, zero keeps all, a negative one
      drops that many from the low end. */
  function SelectCount(topK: int, n: nat): (m: nat)
    ensures m <= n
    ensures topK >= 1 ==> m == if topK < n then topK else n
    ensures topK == 0 ==> m == n
  {
    if topK > 0 then (if topK < n then topK else n)
    else if topK == 0 then n
    else if -topK < n then n + topK else 0
  }

  /** Where Python's slice `a[start:]` begins in a list of length `n`: a
      negative start counts from the end, and both ends are clamped. */
  function SliceStart(start: int, n: nat): (p: nat)
    ensures p <= n
    ensures 0 <= start <= n ==> p == start
    ensures -(n as int) <= start < 0 ==> p == n + start
  {
    if start < 0 then (if start + n < 0 then 0 else start + n)
    else if start > n then n
    else start
  }

  /** The number of indices kept is the length of the slice `[-top_k:]`. */
  lemma SelectCountIsSliceLength(topK: int, n: nat)
    ensures SelectCount(topK, n) == n - SliceStart(-topK, n)
  {
  }

  ghost predicate Distinct(s: seq<nat>) {
    forall i, j :: 0 <= i < j < |s| ==> s[i] != s[j]
  }

  /** Position in `cand` of a largest score. */
  function ArgMax(b: seq<real>, cand: seq<nat>): (j: nat)
    requires |cand| > 0
    requires forall k :: 0 <= k < |cand| ==> cand[k] < |b|
    ensures j < |cand|
    ensures forall k :: 0 <= k < |cand| ==> b[cand[k]] <= b[cand[j]]
  {
    if |cand| == 1 then 0
    else
      var j := ArgMax(b, cand[1..]) + 1;
      if b[cand[0]] >= b[cand[j]] then 0 else j
  }

  function RemoveAt(s: seq<nat>, j: nat): (r: seq<nat>)
    requires j < |s|
    ensures |r| == |s| - 1
    ensures forall x :: x in s && x != s[j] ==> x in r
    ensures forall x :: x in r ==> x in s
  {
    assert s == s[..j] + [s[j]] + s[j + 1..];
    s[..j] + s[j + 1..]
  }

  /** Removing one element of a list without repeats leaves a list without
      repeats that lacks that element. */
  lemma RemoveAtDistinct(s: seq<nat>, j: nat)
    requires j < |s|
    requires Distinct(s)
    ensures Distinct(RemoveAt(s, j))
    ensures s[j] !in RemoveAt(s, j)
  {
    var r := RemoveAt(s, j);
    assert forall i :: 0 <= i < |r| ==> r[i] == (if i < j then s[i] else s[i + 1]);
  }

  /** The `m` best indices among `cand`, best first; the order among equal
      scores is left open. */
  function SelectTop(b: seq<real>, cand: seq<nat>, m: nat): (r: seq<nat>)
    requires m <= |cand|
    requires Distinct(cand)
    requires forall k :: 0 <= k < |cand| ==> cand[k] < |b|
    ensures |r| == m
    ensures forall i :: 0 <= i < m ==> r[i] in cand
    ensures Distinct(r)
    ensures forall i :: 0 < i < m ==> b[r[i - 1]] >= b[r[i]]
    ensures forall i, y :: 0 <= i < m && y in cand && y !in r ==> b[r[i]] >= b[y]
    decreases m
  {
    if m == 0 then []
    else
      var j := ArgMax(b, cand);
      var rest := RemoveAt(cand, j);
      RemoveAtDistinct(cand, j);
      var tail := SelectTop(b, rest, m - 1);
      SelectTopStep(b, cand, j, tail);
      [cand[j]] + tail
  }

  /** Putting a best candidate in front of the best of the others keeps
      the order, the absence of repeats and the dominance over the rest. */
  lemma SelectTopStep(b: seq<real>, cand: seq<nat>, j: nat, tail: seq<nat>)
    requires j < |cand|
    requires forall k :: 0 <= k < |cand| ==> cand[k] < |b|
    requires forall k :: 0 <= k < |cand| ==> b[cand[k]] <= b[cand[j]]
    requires cand[j] !in RemoveAt(cand, j)
    requires forall i :: 0 <= i < |tail| ==> tail[i] in RemoveAt(cand, j)
    requires Distinct(tail)
    requires forall i :: 0 < i < |tail| ==> b[tail[i - 1]] >= b[tail[i]]
    requires forall i, y :: 0 <= i < |tail| && y in RemoveAt(cand, j) && y !in tail ==> b[tail[i]] >= b[y]
    ensures var r := [cand[j]] + tail;
            && (forall i :: 0 <= i < |r| ==> r[i] in cand)
            && Distinct(r)
            && (forall i :: 0 < i < |r| ==> b[r[i - 1]] >= b[r[i]])
            && (forall i, y :: 0 <= i < |r| && y in cand && y !in r ==> b[r[i]] >= b[y])
  {
    var x := cand[j];
    var rest := RemoveAt(cand, j);
    var r := [x] + tail;
    assert forall y :: y in cand ==> b[y] <= b[x];
    forall i | 0 <= i < |r|
      ensures r[i] in cand
      ensures i > 0 ==> r[i] != x
    {
      if i > 0 {
        assert r[i] == tail[i - 1] && tail[i - 1] in rest;
      }
    }
  }

  function Indices(n: nat): (r: seq<nat>)
    ensures |r| == n
    ensures forall i :: 0 <= i < n ==> r[i] == i
  {
    seq(n, i requires 0 <= i < n => i)
  }

  /** `np.argsort(b)[-top_k:][::-1]`: the selected indices of `b`, best
      score first. */
  function TopIndices(b: seq<real>, topK: int): (idx: seq<nat>)
    ensures |idx| == SelectCount(topK, |b|)
    ensures forall i :: 0 <= i < |idx| ==> idx[i] < |b|
    ensures Distinct(idx)
    ensures forall i :: 0 < i < |idx| ==> b[idx[i - 1]] >= b[idx[i]]
    ensures forall i, y :: 0 <= i < |idx| && 0 <= y < |b| && y !in idx ==> b[idx[i]] >= b[y]
  {
    var all := Indices(|b|);
    assert forall y :: 0 <= y < |b| ==> y in all by {
      forall y | 0 <= y < |b|
        ensures y in all
      {
        assert all[y] == y;
      }
    }
    SelectTop(b, all, SelectCount(topK, |b|))
  }

  /** The indices `find_relevant_chunks` selects, in output order. */
  function RelevantIndices(question: string, scores: seq<real>, chunks: seq<string>, topK: int): seq<nat>
    requires |scores| == |chunks|
  {
    TopIndices(BoostedScores(question, scores, chunks), topK)
  }

  /** `find_relevant_chunks`, with the cosine similarities given as `scores`:
      the cleaned text of the best chunks after the keyword boost. */
  function FindRelevantChunks(question: string, scores: seq<real>, chunks: seq<string>, topK: int)
    : (r: seq<string>)
    requires |scores| == |chunks|
    ensures |r| == SelectCount(topK, |chunks|)
    ensures forall i :: 0 <= i < |r| ==>
              r[i] == Preprocess(chunks[RelevantIndices(question, scores, chunks, topK)[i]])
  {
    var idx := RelevantIndices(question, scores, chunks, topK);
    seq(|idx|, i requires 0 <= i < |idx| => Preprocess(chunks[idx[i]]))
  }

  /** For a positive `top_k` the ranker returns `min(top_k, len(chunks))`
      cleaned chunks of distinct indices, best boosted score first, and no
      chunk left out scores above one that was taken. */
  lemma RelevantChunksSpec(question: string, scores: seq<real>, chunks: seq<string>, topK: int)
    requires |scores| == |chunks|
    requires topK >= 1
    ensures var r := FindRelevantChunks(question, scores, chunks, topK);
            var idx := RelevantIndices(question, scores, chunks, topK);
            var b := BoostedScores(question, scores, chunks);
            && |r| == (if topK < |chunks| then topK else |chunks|)
            && |idx| == |r|
            && (forall i :: 0 <= i < |r| ==> idx[i] < |chunks| && r[i] == Preprocess(chunks[idx[i]]))
            && Distinct(idx)
            && (forall i :: 0 < i < |r| ==> b[idx[i - 1]] >= b[idx[i]])
            && (forall i, y :: 0 <= i < |r| && 0 <= y < |chunks| && y !in idx ==> b[idx[i]] >= b[y])
  {
  }
}

=== FILE: text.dfy ===
/** String helpers with the meaning Python gives them: whitespace, `strip`,
    `split`, `lower`, `in` on strings, `" ".join`, `replace` and `s[:n]`. */
module Text {

  /** Exactly the characters for which Python's `str.isspace` holds; the same
      set is matched by `\s` in a `str` regular expression. */
  predicate IsSpace(c: char) {
    || c == ' ' || c == '\t' || c == '\n' || c == '\r' || c == '\U{B}' || c == '\U{C}'
    || ('\U{1C}' <= c <= '\U{1F}') || c == '\U{85}' || c == '\U{A0}' || c == '\U{1680}'
    || ('\U{2000}' <= c <= '\U{200A}') || c == '\U{2028}' || c == '\U{2029}' || c == '\U{202F}'
    || c == '\U{205F}' || c == '\U{3000}'
  }

  /** A sentence-ending character: one of `.!?\n`. */
  predicate IsTerminator(c: char) {
    c == '.' || c == '!' || c == '?' || c == '\n'
  }

  ghost predicate AllSpace(s: string) {
    forall i :: 0 <= i < |s| ==> IsSpace(s[i])
  }

  /** Neither the first nor the last character is whitespace. */
  ghost predicate NoOuterSpace(s: string) {
    |s| == 0 || (!IsSpace(s[0]) && !IsSpace(s[|s| - 1]))
  }

  /** `r` sits at offset `a` of `s` with only whitespace around it. */
  ghost predicate StrippedAt(r: string, s: string, a: int) {
    && 0 <= a <= |s| - |r|
    && s[a..a + |r|] == r
    && AllSpace(s[..a])
    && AllSpace(s[a + |r|..])
  }

  /** `r` occurs in `s` starting at offset `p`. */
  predicate OccursAt(r: string, s: string, p: int) {
    0 <= p <= |s| - |r| && s[p..p + |r|] == r
  }

  /** Length of the leading whitespace run of `s`. */
  function LeadingSpace(s: string): (a: nat)
    ensures a <= |s|
    ensures AllSpace(s[..a])
    ensures a == |s| || !IsSpace(s[a])
  {
    if |s| > 0 && IsSpace(s[0]) then
      var a := 1 + LeadingSpace(s[1..]);
      assert s[..a] == [s[0]] + s[1..][..a - 1];
      a
    else 0
  }

  /** End of `s` once its trailing whitespace, not going below `a`, is cut. */
  function TrailingCut(s: string, a: nat): (b: nat)
    requires a <= |s|
    ensures a <= b <= |s|
    ensures AllSpace(s[b..])
    ensures b == a || !IsSpace(s[b - 1])
    decreases |s|
  {
    if |s| > a && IsSpace(s[|s| - 1]) then
      var b := TrailingCut(s[..|s| - 1], a);
      assert s[b..] == s[..|s| - 1][b..] + [s[|s| - 1]];
      b
    else |s|
  }

  /** Python's `s.strip()` with no argument. */
  function Strip(s: string): (r: string)
    ensures |r| <= |s|
    ensures NoOuterSpace(r)
    ensures StrippedAt(r, s, LeadingSpace(s))
  {
    var a := LeadingSpace(s);
    var b := TrailingCut(s, a);
    assert b > a ==> !IsSpace(s[a]);
    s[a..b]
  }

  /** The leading whitespace run is the only offset with whitespace before
      it and none at it. */
  lemma {:induction false} LeadingSpaceUnique(s: string, a: nat)
    requires a <= |s|
    requires AllSpace(s[..a])
    requires a == |s| || !IsSpace(s[a])
    ensures LeadingSpace(s) == a
    decreases a
  {
    if a > 0 {
      assert s[..a][0] == s[0];
      assert s[1..][..a - 1] == s[..a][1..];
      assert a < |s| ==> s[1..][a - 1] == s[a];
      LeadingSpaceUnique(s[1..], a - 1);
    }
  }

  /** The trailing whitespace run is the only cut with whitespace after it
      and none just before it. */
  lemma {:induction false} TrailingCutUnique(s: string, a: nat, e: nat)
    requires a <= e <= |s|
    requires AllSpace(s[e..])
    requires e == a || !IsSpace(s[e - 1])
    ensures TrailingCut(s, a) == e
    decreases |s|
  {
    if |s| > a && IsSpace(s[|s| - 1]) {
      assert e < |s|;
      var s' := s[..|s| - 1];
      assert AllSpace(s'[e..]) by {
        forall i | 0 <= i < |s'[e..]|
          ensures IsSpace(s'[e..][i])
        {
          assert s'[e..][i] == s[e..][i];
        }
      }
      assert e > a ==> s'[e - 1] == s[e - 1];
      TrailingCutUnique(s', a, e);
    } else {
      assert e == |s|;
    }
  }

  /** What `strip` returns is determined by the text between the outer
      whitespace runs: padding a string without outer whitespace by
      whitespace on both sides and stripping gives it back. */
  lemma StripAround(lead: string, core: string, trail: string)
    requires AllSpace(lead) && AllSpace(trail)
    requires NoOuterSpace(core)
    ensures Strip(lead + core + trail) == core
  {
    var s := lead + core + trail;
    var e := |lead| + |core|;
    assert s[e..] == trail;
    if |core| > 0 {
      assert s[..|lead|] == lead;
      assert s[|lead|] == core[0];
      LeadingSpaceUnique(s, |lead|);
      assert s[e - 1] == core[|core| - 1];
      TrailingCutUnique(s, |lead|, e);
      assert s[|lead|..e] == core;
    } else {
      assert AllSpace(s[..|s|]) by {
        forall i | 0 <= i < |s|
          ensures IsSpace(s[..|s|][i])
        {
          if i < |lead| {
            assert s[..|s|][i] == lead[i];
          } else {
            assert s[..|s|][i] == trail[i - |lead|];
          }
        }
      }
      LeadingSpaceUnique(s, |s|);
    }
  }

  lemma StripIsInfix(s: string)
    ensures Contains(s, Strip(s))
  {
    assert OccursAt(Strip(s), s, LeadingSpace(s));
  }

  function LowerChar(c: char): char {
    if 'A' <= c <= 'Z' then (c as int + 32) as char else c
  }

  function UpperChar(c: char): char {
    if 'a' <= c <= 'z' then (c as int - 32) as char else c
  }

  /** Python's `s.lower()`, restricted to ASCII letters. */
  function Lower(s: string): (r: string)
    ensures |r| == |s|
  {
    seq(|s|, i requires 0 <= i < |s| => LowerChar(s[i]))
  }

  /** Python's `sub in s`. */
  predicate Contains(s: string, sub: string) {
    exists p | 0 <= p <= |s| - |sub| :: OccursAt(sub, s, p)
  }

  /** Python's `any(w in s for w in words)`. */
  predicate ContainsAny(s: string, words: seq<string>) {
    exists k | 0 <= k < |words| :: Contains(s, words[k])
  }

  /** Length of the leading run of non-whitespace characters. */
  function WordLength(s: string): (n: nat)
    ensures n <= |s|
    ensures forall i :: 0 <= i < n ==> !IsSpace(s[i])
    ensures n == |s| || IsSpace(s[n])
  {
    if |s| > 0 && !IsSpace(s[0]) then 1 + WordLength(s[1..]) else 0
  }

  /** The leading word is the only prefix free of whitespace that is
      followed by whitespace or the end. */
  lemma WordLengthUnique(s: string, n: nat)
    requires n <= |s|
    requires forall i :: 0 <= i < n ==> !IsSpace(s[i])
    requires n == |s| || IsSpace(s[n])
    ensures WordLength(s) == n
  {
  }

  /** Python's `s.split()`: the maximal whitespace-free runs, in order. */
  function Words(s: string): seq<string>
    decreases |s|
  {
    if |s| == 0 then []
    else if IsSpace(s[0]) then Words(s[1..])
    else
      var n := WordLength(s);
      [s[..n]] + Words(s[n..])
  }

  /** Every word is non-empty and free of whitespace. */
  lemma {:induction false} WordsAreWords(s: string)
    ensures forall k :: 0 <= k < |Words(s)| ==> |Words(s)[k]| > 0
    ensures forall k, i :: 0 <= k < |Words(s)| && 0 <= i < |Words(s)[k]| ==> !IsSpace(Words(s)[k][i])
    decreases |s|
  {
    if |s| > 0 {
      if IsSpace(s[0]) {
        WordsAreWords(s[1..]);
      } else {
        var n := WordLength(s);
        WordsAreWords(s[n..]);
        var ws := Words(s);
        assert ws == [s[..n]] + Words(s[n..]);
        forall k | 0 < k < |ws|
          ensures ws[k] == Words(s[n..])[k - 1]
        {
        }
      }
    }
  }

  /** Only whitespace has no words. */
  lemma {:induction false} NoWordsAllSpace(s: string)
    requires Words(s) == []
    ensures AllSpace(s)
    decreases |s|
  {
    if |s| > 0 {
      NoWordsAllSpace(s[1..]);
      assert forall i :: 0 < i < |s| ==> s[i] == s[1..][i - 1];
    }
  }

  /** Leading whitespace never shows in the words. */
  lemma {:induction false} WordsSkipSpace(s: string, k: nat)
    requires k <= |s|
    requires AllSpace(s[..k])
    ensures Words(s) == Words(s[k..])
    decreases k
  {
    if k > 0 {
      assert s[..k][0] == s[0];
      assert s[1..][..k - 1] == s[..k][1..];
      WordsSkipSpace(s[1..], k - 1);
      assert s[1..][k - 1..] == s[k..];
    }
  }

  /** A non-empty string without whitespace is a single word. */
  lemma WordsOfWord(s: string)
    requires |s| > 0
    requires forall i :: 0 <= i < |s| ==> !IsSpace(s[i])
    ensures Words(s) == [s]
  {
    WordLengthUnique(s, |s|);
    assert s[..|s|] == s && s[|s|..] == [];
  }

  /** Any whitespace character separates words: the words of `s` are the
      words before it followed by the words after it. */
  lemma {:induction false} WordsSplitAt(s: string, i: nat)
    requires i < |s| && IsSpace(s[i])
    ensures Words(s) == Words(s[..i]) + Words(s[i + 1..])
    decreases |s|
  {
    if IsSpace(s[0]) {
      if i == 0 {
        SpaceAtHead(s);
      } else {
        assert s[1..][i - 1] == s[i];
        WordsSplitAt(s[1..], i - 1);
        SpaceHeadSplit(s, i);
      }
    } else {
      var n := WordLength(s);
      assert n <= i && s[n..][i - n] == s[i];
      WordsSplitAt(s[n..], i - n);
      WordHeadSplit(s, i);
    }
  }

  lemma SpaceAtHead(s: string)
    requires |s| > 0 && IsSpace(s[0])
    ensures Words(s) == Words(s[..0]) + Words(s[1..])
  {
    assert s[..0] == [];
    assert Words(s[..0]) + Words(s[1..]) == Words(s[1..]);
  }

  /** The step of `WordsSplitAt` past a leading word. */
  lemma WordHeadSplit(s: string, i: nat)
    requires i < |s| && IsSpace(s[i]) && !IsSpace(s[0])
    requires var u := s[WordLength(s)..];
             i - WordLength(s) < |u| &&
             Words(u) == Words(u[..i - WordLength(s)]) + Words(u[i - WordLength(s) + 1..])
    ensures Words(s) == Words(s[..i]) + Words(s[i + 1..])
  {
    var n := WordLength(s);
    var u := s[n..];
    var w := s[..n];
    var x := Words(u[..i - n]);
    var y := Words(u[i - n + 1..]);
    assert Words(s) == [w] + (x + y) by {
      WordsCons(s);
    }
    assert Words(s[..i]) == [w] + x by {
      PrefixWordsCons(s, i);
      assert u[..i - n] == s[..i][n..];
    }
    assert Words(s[i + 1..]) == y by {
      assert u[i - n + 1..] == s[i + 1..];
    }
    ConsRegroup(w, x, y);
  }

  lemma ConsRegroup(w: string, x: seq<string>, y: seq<string>)
    ensures [w] + (x + y) == ([w] + x) + y
  {
  }

  /** The step of `WordsSplitAt` past a leading whitespace character. */
  lemma SpaceHeadSplit(s: string, i: nat)
    requires 0 < i < |s| && IsSpace(s[0])
    requires Words(s[1..]) == Words(s[1..][..i - 1]) + Words(s[1..][i..])
    ensures Words(s) == Words(s[..i]) + Words(s[i + 1..])
  {
    var p := s[..i];
    assert Words(s) == Words(s[1..]);
    assert p[0] == s[0];
    assert Words(p) == Words(p[1..]);
    assert p[1..] == s[1..][..i - 1];
    assert s[1..][i..] == s[i + 1..];
  }

  /** Cutting a string at whitespace after its first word leaves that
      word in front. */
  lemma PrefixWordsCons(s: string, i: nat)
    requires i < |s| && IsSpace(s[i]) && !IsSpace(s[0])
    requires WordLength(s) <= i
    ensures Words(s[..i]) == [s[..WordLength(s)]] + Words(s[..i][WordLength(s)..])
  {
    WordOfPrefix(s, i);
    WordsCons(s[..i]);
    assert s[..i][..WordLength(s)] == s[..WordLength(s)];
  }

  /** Cutting a string at whitespace after its first word keeps that word. */
  lemma WordOfPrefix(s: string, i: nat)
    requires i < |s| && IsSpace(s[i]) && !IsSpace(s[0])
    requires WordLength(s) <= i
    ensures WordLength(s[..i]) == WordLength(s)
    ensures |s[..i]| > 0 && !IsSpace(s[..i][0])
  {
    var n := WordLength(s);
    var p := s[..i];
    assert forall j :: 0 <= j < n ==> p[j] == s[j];
    assert n < i ==> p[n] == s[n];
    WordLengthUnique(p, n);
  }

  /** One unfolding of `Words` at a word. */
  lemma WordsCons(s: string)
    requires |s| > 0 && !IsSpace(s[0])
    ensures Words(s) == [s[..WordLength(s)]] + Words(s[WordLength(s)..])
  {
  }

  /** Python's `sep.join(parts)`. */
  function Join(sep: string, parts: seq<string>): string {
    if |parts| == 0 then []
    else if |parts| == 1 then parts[0]
    else parts[0] + sep + Join(sep, parts[1..])
  }

  /** Joining two non-empty lists puts one separator between their joins. */
  lemma {:induction false} JoinAppend(sep: string, a: seq<string>, b: seq<string>)
    requires |a| > 0 && |b| > 0
    ensures Join(sep, a + b) == Join(sep, a) + sep + Join(sep, b)
  {
    assert (a + b)[0] == a[0];
    if |a| == 1 {
      assert (a + b)[1..] == b;
    } else {
      assert (a + b)[1..] == a[1..] + b;
      JoinAppend(sep, a[1..], b);
    }
  }

  /** Words joined by single spaces have no outer whitespace, and are
      empty only when there are no words. */
  lemma {:induction false} JoinWordsNoOuterSpace(ws: seq<string>)
    requires forall k :: 0 <= k < |ws| ==> |ws[k]| > 0
    requires forall k, i :: 0 <= k < |ws| && 0 <= i < |ws[k]| ==> !IsSpace(ws[k][i])
    ensures NoOuterSpace(Join(" ", ws))
    ensures |ws| > 0 ==> |Join(" ", ws)| > 0
  {
    if |ws| > 1 {
      var rest := Join(" ", ws[1..]);
      JoinWordsNoOuterSpace(ws[1..]);
      assert ws[1..][|ws| - 2] == ws[|ws| - 1];
      assert |rest| > 0;
      assert !IsSpace(ws[0][0]);
      var j := Join(" ", ws);
      assert j == ws[0] + " " + rest;
      assert j[0] == ws[0][0];
      assert j[|j| - 1] == rest[|rest| - 1];
    } else if |ws| == 1 {
      assert !IsSpace(ws[0][0]) && !IsSpace(ws[0][|ws[0]| - 1]);
    }
  }

  /** No two spaces in a row. */
  predicate NoDoubleSpace(s: string) {
    forall i :: 0 < i < |s| ==> !(s[i - 1] == ' ' && s[i] == ' ')
  }

  /** Python's `s.replace('  ', ' ')`: left-to-right, non-overlapping. */
  function ReplaceDoubleSpace(s: string): (r: string)
    ensures |r| <= |s|
    ensures |s| > 0 ==> |r| > 0
    ensures |s| > 0 && s[0] != ' ' ==> r[0] == s[0]
    ensures |s| > 0 && s[|s| - 1] != ' ' ==> r[|r| - 1] == s[|s| - 1]
  {
    if |s| >= 2 && s[0] == ' ' && s[1] == ' ' then [' '] + ReplaceDoubleSpace(s[2..])
    else if |s| == 0 then []
    else [s[0]] + ReplaceDoubleSpace(s[1..])
  }

  /** A string without a double space is left as it is. */
  lemma {:induction false} ReplaceDoubleSpaceClean(s: string)
    requires NoDoubleSpace(s)
    ensures ReplaceDoubleSpace(s) == s
  {
    if |s| > 0 {
      if |s| >= 2 {
        assert !(s[0] == ' ' && s[1] == ' ');
      }
      assert NoDoubleSpace(s[1..]) by {
        forall i | 0 < i < |s[1..]|
          ensures !(s[1..][i - 1] == ' ' && s[1..][i] == ' ')
        {
          assert s[1..][i - 1] == s[i] && s[1..][i] == s[i + 1];
        }
      }
      ReplaceDoubleSpaceClean(s[1..]);
    }
  }

  /** The leftmost double space becomes one space, and the scan resumes
      after it. */
  lemma {:induction false} ReplaceDoubleSpaceFirst(a: string, b: string)
    requires NoDoubleSpace(a + " ")
    ensures ReplaceDoubleSpace(a + "  " + b) == a + " " + ReplaceDoubleSpace(b)
  {
    var s := a + "  " + b;
    if |a| == 0 {
      assert s == "  " + b && s[2..] == b;
    } else {
      var a1 := a + " ";
      assert a1[1..] == a[1..] + " ";
      NoDoubleSpaceTail(a1);
      ReplaceDoubleSpaceFirst(a[1..], b);
      assert s[0] == a1[0] && s[1] == a1[1];
      assert s[1..] == a[1..] + "  " + b;
      ReplaceKeepsHead(s);
      KeepHeadRegroup(a, ReplaceDoubleSpace(b));
    }
  }

  lemma NoDoubleSpaceTail(s: string)
    requires |s| > 0 && NoDoubleSpace(s)
    ensures NoDoubleSpace(s[1..])
  {
    forall i | 0 < i < |s[1..]|
      ensures !(s[1..][i - 1] == ' ' && s[1..][i] == ' ')
    {
      assert s[1..][i - 1] == s[i] && s[1..][i] == s[i + 1];
    }
  }

  /** One step of the scan at a character that does not start a double
      space. */
  lemma ReplaceKeepsHead(s: string)
    requires |s| >= 2 && !(s[0] == ' ' && s[1] == ' ')
    ensures ReplaceDoubleSpace(s) == [s[0]] + ReplaceDoubleSpace(s[1..])
  {
  }

  lemma KeepHeadRegroup(a: string, r: string)
    requires |a| > 0
    ensures [a[0]] + (a[1..] + " " + r) == a + " " + r
  {
    assert a == [a[0]] + a[1..];
  }

  /** The first `n` elements, or all of them: Python's `s[:n]` for `n >= 0`. */
  function Take<T>(s: seq<T>, n: nat): (r: seq<T>)
    ensures |r| == if n < |s| then n else |s|
    ensures r == s[..|r|]
  {
    if n < |s| then s[..n] else s
  }
}

=== FILE: wrappers.dfy ===
/** Small failure-carrying datatypes shared by the model. */
module Wrappers {

  /** A value that may be absent; stands for Python's `None`. */
  datatype Option<+T> = None | Some(value: T)

  /** The Python exceptions the modelled code can raise on its own. */
  datatype PyError =
    | IndexError   // `chunks[0]` on an empty list
    | TypeError    // comparing `None > 1`

  /** Either a returned value or a raised exception. */
  datatype Outcome<+T> = Return(value: T) | Raise(error: PyError)
}
